=== FILE: README.md ===
# Screen-recording session controller, modelled in Dafny

This project models the orchestration core of a Windows screen-recording library. Pixel capture and encoding are not part of it. The core covers:

- the command-file watcher (`startCommandProcessing`). It polls the command file's modification time, applies a keep-alive watchdog and reads `StartRec` / `StopRec` lines. Through a `call_once` it resolves the one-shot start/abort decision that `start` blocks on;
- the recording state (`ScreenRecordingState`), `start`, `stop` and `isCaptureSessionRunning`;
- the capture thread (`startScreenRecording`) and the encoding thread (`produceSegmentedVideosFromScreenCapture`). They share a frame deque. The capture thread runs a primary round, then an extra round bounded by `kExtraCaptureDuration`, and then writes Terminated;
- `TimedMediaGrabber`, the periodic callback driver with a timer-queue backend and a sleep-loop backend;
- the validation and clamps in `parseConfigFile`, and `init`;
- the pure logging helpers in `LogUtil`.

Threads are replaced by explicit interleavings. `Controller.Event` lists one indivisible action of each thread. `Controller.Apply` performs one event and `Controller.Run` performs a sequence of them. Clocks, modification times, file contents and encoder setup results are event parameters. So is whether the operating system grants each capture round's event, timer queue and timer: each round's start goes through the modelled `TimedMediaGrabber::start`. A frame is an opaque number.

Files:

| file | module | models |
|---|---|---|
| `wrappers.dfy` | `Wrappers` | `Option` and `Result` |
| `capture_session.dfy` | `CaptureSession` | state enum, defaults and constants of `ScreenCaptureImpl.hpp` |
| `command_watcher.dfy` | `CommandWatcher` | the watcher loop as a pure `Step` |
| `frame_queue.dfy` | `FrameQueue` | producer and consumer callbacks over a `seq` queue |
| `media_grabber.dfy` | `MediaGrabber` | `TimedMediaGrabber` |
| `capture_config.dfy` | `CaptureConfig` | `parseConfigFile` and `init` |
| `log_util.dfy` | `LogUtil` | logging helpers |
| `controller.dfy` | `Controller` | `start` / `stop` and the thread interleavings |

The model follows the code as written, including these behaviours:

- A `StopRec` read before any `StartRec` leaves the state AboutToStop, not Terminated. Line 659 writes AboutToStop before the trailing `setScreenSessionState(false)`, and that call only terminates a NotStarted session.
- `stop()` and `StopRec` write AboutToStop unconditionally, so Terminated is not absorbing.
- The remembered modification time is assigned once only. After that, every poll whose modification time differs from it re-reads the file.
- The watchdog compares against the current modification time. A missing file reads as time 0, so an enabled watchdog trips at once.
- The capture thread takes its state snapshot when it starts running, not when the decision is made. A stop that lands in between makes the snapshot AboutToStop, and the primary round then never ends by itself (`Controller.StaleSnapshotKeepsCapturing`).
- `crf` is read without being part of the validation. A document without it passes every check, and reading the absent member then crashes the process. It is a rapidjson assertion in a debug build and a null pointer handed to `std::atoi` otherwise. The model marks this outcome as the distinct error `MissingCrf`.
- The capture thread ignores what `start` returns for each round. A round whose event cannot be created is over at once with no frames. After that, the extra round still runs and the thread writes Terminated although no StopRec was read (`Controller.EventFailureEndsSessionScenario`). A round whose timer cannot be created leaves the thread waiting for ever, so `start` never returns (`Controller.HungNeverReturns`).
- When the watchdog fires after StartRec, the encoding thread can see Terminated with an empty queue and end. The extra round's snapshot is then also Terminated, so it keeps capturing for two seconds. Those frames are never encoded, and `start` still returns true (`Controller.WatchdogLosesExtraFrames`). With the watchdog disabled this cannot happen (`Controller.ReachableWithoutWatchdog`).

## Model

| member | source | states |
|---|---|---|
| `CaptureSession.IsCaptureSessionRunning` | ScreenCaptureImpl.hpp:193-195 | the session counts as running in exactly the three states other than Terminated |
| `CaptureSession.SourceSize` | ScreenCaptureImpl.cpp:207-209 | source width and height added to the top-left corner give the bottom-right corner |
| `CommandWatcher.Decide` | ScreenCaptureImpl.cpp:598-613 | only the first call has an effect and it fixes the promise value; `true` gives Started; `false` gives Terminated exactly when the state was NotStarted (or already Terminated) and otherwise leaves the state alone |
| `CommandWatcher.Exit` | ScreenCaptureImpl.cpp:629-665 | leaving the loop always resolves the decision: to abort if it was open, unchanged (and without touching the state) if it was already made |
| `CommandWatcher.WatchdogFires` | ScreenCaptureImpl.cpp:593-626 | the watchdog fires exactly when the keep-alive is positive and the file is older than the allowance `MaxWaitTime`, 3 × keep-alive seconds (line 594): firing needs both, and both together always fire |
| `CommandWatcher.FreshFileTolerated` | ScreenCaptureImpl.cpp:616-626 | a file no older than 3 × keep-alive seconds never trips the watchdog |
| `CommandWatcher.ReadCommand` | ScreenCaptureImpl.cpp:644-662 | an unopenable file or a line other than StartRec/StopRec changes nothing; the loop is left exactly on StopRec, with AboutToStop and a resolved decision; StartRec can only resolve the decision to start; a resolved decision and the remembered mtime are kept |
| `CommandWatcher.Step` | ScreenCaptureImpl.cpp:629-663 | an exited watcher does nothing; every exit leaves the decision resolved; a resolved decision never changes; a nonzero remembered mtime never changes and a zero one can only become the tick's mtime; Started is reached only through a fresh start decision |
| `CommandWatcher.WatchdogDisabled` | ScreenCaptureImpl.cpp:593-594 | with an allowance of 3 × keep-alive that is not positive, the watchdog never fires |
| `CommandWatcher.WatchdogStrictBoundary` | ScreenCaptureImpl.cpp:621 | a file exactly the allowance old does not trip the watchdog; one millisecond older does |
| `CommandWatcher.MissingFileTripsWatchdog` | FileUtils.h:7-16 | a missing file reads as mtime 0, so an enabled watchdog fires as soon as the clock is past the allowance |
| `CommandWatcher.WatchdogTerminates` | ScreenCaptureImpl.cpp:616-635 | a tripped watchdog sets Terminated, leaves the loop and resolves an open decision to abort |
| `CommandWatcher.ExitWithoutWatchdogIsStop` | ScreenCaptureImpl.cpp:629-663 | with a quiet watchdog the loop is left only when the file is read and its first line is StopRec, and then the state is AboutToStop |
| `CommandWatcher.StopLineExits` | ScreenCaptureImpl.cpp:652-665 | a StopRec line that is read leaves the loop with AboutToStop whether or not StartRec came first; an open decision becomes abort |
| `CommandWatcher.StartLineStarts` | ScreenCaptureImpl.cpp:652-654 | a StartRec line resolves an open decision to start (state Started); a repeated one changes neither decision nor state |
| `CommandWatcher.UnchangedMtimeIsIgnored` | ScreenCaptureImpl.cpp:637-642 | an mtime equal to the remembered one changes nothing |
| `CommandWatcher.UnreadLineIrrelevant` | ScreenCaptureImpl.cpp:637-645 | when the file is not read, its content has no effect |
| `CommandWatcher.UnrecognisedLineIsIgnored` | ScreenCaptureImpl.cpp:644-662 | an unopenable file or a line other than StartRec/StopRec changes nothing beyond remembering the first nonzero mtime |
| `CommandWatcher.DecisionIsFinal` | ScreenCaptureImpl.cpp:598-599 | over any number of iterations a resolved decision keeps its value |
| `CommandWatcher.StLocalAssignedOnce` | ScreenCaptureImpl.cpp:637-638 | over any number of iterations a nonzero remembered mtime is never reassigned |
| `CommandWatcher.RunStaysConsistent` | ScreenCaptureImpl.cpp:598-665 | over any number of iterations an exited loop has resolved the promise, and Started implies a start decision |
| `CommandWatcher.SilentFileWaitsForever` | ScreenCaptureImpl.cpp:629-642 | with the watchdog disabled and an mtime that never changes, the watcher stays exactly as it was |
| `FrameQueue.ProducerTick` | ScreenCaptureImpl.cpp:545-556 | returns true iff the live state equals the snapshot; then exactly one frame is appended at the back of the queue; otherwise nothing changes; the FIFO relation is preserved |
| `FrameQueue.ConsumerTick` | ScreenCaptureImpl.cpp:517-530 | returns true iff the session runs or frames wait; only the front frame is removed and handed on; the FIFO relation is preserved |
| `FrameQueue.ConsumedIsPrefixOfProduced` | ScreenCaptureImpl.cpp:517-556 | under any interleaving of the two callbacks the frames handed on are a prefix of those captured, in order |
| `FrameQueue.ConsumerDrains` | ScreenCaptureImpl.cpp:518-526 | one consumer callback per waiting frame empties the queue and hands on every captured frame |
| `MediaGrabber.EffectiveFps` | TimedMediaGrabber.hpp:53-54 | the rate used lies in (0, 1000]; it is the scaled rate when that is in range, otherwise the default 30 |
| `MediaGrabber.Period` | TimedMediaGrabber.hpp:50-56 | the period lies in [1, 1000] ms and is the largest whole number of milliseconds the rate fits into one second |
| `MediaGrabber.New` | TimedMediaGrabber.hpp:50-56 | a new grabber has the period computed from its rate (so in [1, 1000]), the given duration, the timer backend and nothing armed |
| `MediaGrabber.ZeroFpsPeriod` | TimedMediaGrabber.hpp:53-55 | a rate of 0 gives a 33 ms period |
| `MediaGrabber.PeriodAntitone` | TimedMediaGrabber.hpp:55 | within the accepted range a higher rate never gives a longer period |
| `MediaGrabber.CallbackTypeName` | TimedMediaGrabber.hpp:139-148 | the name is empty exactly for the unknown backend |
| `MediaGrabber.CallbackTypeNamesDistinct` | TimedMediaGrabber.hpp:139-148 | different backends print different names |
| `MediaGrabber.Start` | TimedMediaGrabber.hpp:88-112 | fails without touching anything if the event cannot be created; in timer mode it succeeds iff the timer queue and the timer can be created; otherwise it succeeds; the run flag is raised only for the sleep backend |
| `MediaGrabber.TimerStartWait` | TimedMediaGrabber.hpp:88-112 | with the timer backend, `start` reports success exactly when the wait on the event can end by a signal; without an event the wait fails at once; without a timer queue or timer it lasts for ever |
| `MediaGrabber.UnknownBackendWaitsForever` | TimedMediaGrabber.hpp:88-112 | with an unknown backend `start` reports success, yet nothing is armed and the wait lasts for ever |
| `MediaGrabber.StopsAfter` | TimedMediaGrabber.hpp:166-184 | a false callback result always ends the run; without a positive duration only that does; with one, a true result ends it exactly when the elapsed time has reached the duration |
| `MediaGrabber.StopIsPersistent` | TimedMediaGrabber.hpp:171-177 | once the elapsed time ends a run, any later time would end it too |
| `MediaGrabber.DeleteTimer` | TimedMediaGrabber.hpp:226-242 | afterwards no timer exists; an existing timer takes the queue handle with it; with no timer nothing changes |
| `MediaGrabber.DeleteTimerIdempotent` | TimedMediaGrabber.hpp:226-242 | a second deletion changes nothing |
| `MediaGrabber.CallbackRoutine` | TimedMediaGrabber.hpp:162-185 | on a false result or an elapsed duration the run flag drops and the event is signalled, and the timer is deleted in timer mode only; otherwise nothing changes; the run flag is never raised |
| `MediaGrabber.UnboundedRunEndsOnlyOnFalse` | TimedMediaGrabber.hpp:173 | with duration 0 only a false callback result ends a run |
| `MediaGrabber.DurationBoundaryIsInclusive` | TimedMediaGrabber.hpp:177 | elapsed time equal to the duration ends the run; one millisecond less does not |
| `MediaGrabber.RunSleepLoop` | TimedMediaGrabber.hpp:194-200 | no callback runs without the run flag; no callback runs after one that ended the run; the flag stays up only if no invocation ended the run; when it drops, the event is signalled |
| `MediaGrabber.StartAndRunSleep` | TimedMediaGrabber.hpp:88-112 | `start` with the sleep backend succeeds iff the event is created. The sleep loop then runs callbacks in order until the first one that ends the run, with elapsed time measured from `start`, and the waiting thread is signalled exactly when one did. The timer backend starts no sleep loop |
| `CaptureConfig.ClampBitrate` | ScreenCaptureImpl.cpp:222-224 | the result is 0 or in 1..100; in-range values are kept and anything else becomes 0 |
| `CaptureConfig.ClampCrf` | ScreenCaptureImpl.cpp:226-227 | the result is in 0..51; in-range values are kept and anything else becomes 23 |
| `CaptureConfig.ClampsIdempotent` | ScreenCaptureImpl.cpp:222-227 | clamping a clamped value changes nothing |
| `CaptureConfig.ParseConfigFile` | ScreenCaptureImpl.cpp:126-245 | succeeds iff the file opens, all required members are present and crf is present (an absent crf is the crash outcome `MissingCrf`); an unopenable file and a missing ScreenRecord give their own errors; on success the result is well formed and carries the document's values, with the clamps applied |
| `CaptureConfig.Init` | ScreenCaptureImpl.cpp:503-514 | succeeds iff parsing succeeds and passes on the parse error otherwise; on success it records the command file, output path and keep-alive as given |
| `CaptureConfig.CrfIsReadUnvalidated` | ScreenCaptureImpl.cpp:147-219 | a document that passes every validation step but lacks crf still fails, when crf is read |
| `LogUtil.LevelOfValue` | LogUtil.hpp:12-19 | the six levels are exactly the values 0..5 |
| `LogUtil.LevelString` | LogUtil.cpp:62-88 | the name is empty exactly for values outside the six levels |
| `LogUtil.LevelStringRoundTrip` | LogUtil.cpp:62-88 | each level's printed name reads back as that level; ERR prints as "ERROR" |
| `LogUtil.ShouldWrite` | LogUtil.hpp:148 | FATAL messages, messages at the logger's own level, and everything at a TRACE logger are written; a TRACE message only at a TRACE logger; a written message at another level is above the logger's level |
| `LogUtil.FilterProperties` | LogUtil.hpp:122-148 | a message at level L is written at logger level M iff L ≥ M; so the filter is monotone, FATAL is always written, and the default logger level INFO drops exactly TRACE and DEBUG |
| `LogUtil.ModuleFileName` | LogUtil.cpp:53-60 | the result is a suffix of the path with no backslash; it is the whole path when there is no backslash; otherwise a backslash immediately precedes it |
| `LogUtil.ModuleFileNameIdempotent` | LogUtil.cpp:53-60 | stripping twice equals stripping once |
| `LogUtil.LogFileName` | LogUtil.cpp:16-20 | a log file name exists iff the process name contains a dot |
| `LogUtil.LogFileNameOfStem` | LogUtil.cpp:16-20 | for the process name stem + "." + ext, where ext has no dot, the name is dir + "\" + stem + ".log" |
| `LogUtil.JoinParams` | LogUtil.hpp:134-140 | a single argument is returned unchanged; the result starts with the first argument |
| `LogUtil.SplitJoinRoundTrip` | LogUtil.hpp:134-140 | arguments without spaces are recovered exactly by splitting the joined text at single spaces, so they are joined by exactly one space with none leading or trailing |
| `LogUtil.GetNV` | LogUtil.hpp:180-186 | the text is the name, then "=", then at least one more character |
| `LogUtil.NVRoundTrip` | LogUtil.hpp:180-186 | for a name without "=", the formatted pair reads back as exactly the name and the integer |
| `Controller.Apply` | ScreenCaptureImpl.cpp:542-700 | every action of every thread preserves the session invariant and leaves a resolved decision unchanged |
| `Controller.AfterCaptureIsCallbackRoutine` | TimedMediaGrabber.hpp:162-185 | a capture round ends after a callback exactly when the round's grabber, running with the round's duration and start time, drops its run flag in `callbackRoutine` |
| `Controller.RunPreservesInv` | ScreenCaptureImpl.cpp:542-700 | every interleaving of the threads' actions preserves the session invariant |
| `Controller.ReachableWorlds` | ScreenCaptureImpl.cpp:668-694 | on every interleaving from a fresh `start`: encoded frames are a prefix of captured ones; nothing is captured without a start decision; Started implies a start decision; an exited watcher has resolved the decision; `start` returns true only after both workers finished, and never after an abort decision |
| `Controller.DecisionIsFinal` | ScreenCaptureImpl.cpp:598-613 | whatever any thread does afterwards, a resolved decision keeps its value |
| `Controller.ResumeOutcome` | ScreenCaptureImpl.cpp:678-694 | `start` returns false iff the decision is abort or encoder setup fails, and then creates no worker; otherwise both workers are created and `start` blocks |
| `Controller.BlockedUntilDecided` | ScreenCaptureImpl.cpp:678 | the caller cannot proceed before the decision is made |
| `Controller.StopIsUnconditional` | ScreenCaptureImpl.cpp:697-700 | `stop` leaves AboutToStop in every state, so a terminated session reads as running again |
| `Controller.CaptureFollowsSnapshot` | ScreenCaptureImpl.cpp:543-556 | in the primary round a capture appends one frame and continues iff the live state equals the snapshot; otherwise it appends nothing and ends the round |
| `Controller.ExtraRoundIsBounded` | ScreenCaptureImpl.cpp:574-586 | the first capture at least 2 s into the extra round ends it whatever the state, and the thread then writes Terminated |
| `Controller.ConsumerOutlastsQueue` | ScreenCaptureImpl.cpp:517-530 | the encoding thread ends exactly when the queue is empty and the state is Terminated |
| `Controller.DrainAfterFinish` | ScreenCaptureImpl.cpp:517-586 | when the encoding thread is still running after the capture thread has finished with the state Terminated, queue length + 1 encoding callbacks deliver every captured frame in order and end the encoding thread, and `start` can then return true |
| `Controller.RoundWait` | ScreenCaptureImpl.cpp:563-567 | the capture thread's wait on a round's timer grabber fails at once exactly when the event is refused, and lasts for ever exactly when the event is granted but the timer queue or timer is not |
| `Controller.PrimaryRoundStart` | ScreenCaptureImpl.cpp:543-567 | the primary round runs with the current state as snapshot iff every resource is granted; without an event it is over at once with no frame; without a timer the thread hangs |
| `Controller.ExtraRoundStart` | ScreenCaptureImpl.cpp:574-586 | the extra round runs iff every resource is granted; without an event it is skipped and Terminated is written next; without a timer the thread hangs |
| `Controller.HungNeverReturns` | ScreenCaptureImpl.cpp:563-567 | a hung capture thread stays hung under every later event, captures nothing, and a caller waiting in `start` never returns |
| `Controller.ReachableWithoutWatchdog` | ScreenCaptureImpl.cpp:517-634 | with the watchdog disabled, on every interleaving from a fresh `start` the encoding thread ends only after the capture thread has finished, and then every captured frame has been encoded |
| `Controller.DeliveredWithoutWatchdog` | ScreenCaptureImpl.cpp:517-586 | in a world reachable with the watchdog disabled, once the capture thread has finished with the state Terminated, queue length + 1 encoding callbacks leave every captured frame encoded in order and `start` able to return true |
| `Controller.WatchdogLosesExtraFrames` | ScreenCaptureImpl.cpp:517-634 | a watchdog firing after StartRec lets the encoding thread end on the empty queue; the extra round then captures frames 9 and 10, none is encoded, and `start` returns true |
| `Controller.EventFailureEndsSessionScenario` | ScreenCaptureImpl.cpp:560-586 | a primary round without an event captures nothing; the extra round runs and the thread writes Terminated without any StopRec |
| `Controller.StaleSnapshotKeepsCapturing` | ScreenCaptureImpl.cpp:543-556 | with a snapshot of AboutToStop and an unchanged state, any number of captures at any times append every frame and the primary round never ends |
| `Controller.StopBeforeSnapshotScenario` | ScreenCaptureImpl.cpp:543-546 | StartRec, the caller waking, then StopRec before the capture thread's snapshot together produce a primary round with snapshot AboutToStop |
| `Controller.StopFirstScenario` | ScreenCaptureImpl.cpp:652-665 | StopRec before StartRec makes `start` return false with no worker, and leaves the state AboutToStop |
| `Controller.WatchdogScenario` | ScreenCaptureImpl.cpp:616-635 | with a 2 s keep-alive, a file last modified at second 10 is tolerated at 16.000 s and trips the watchdog at 16.001 s; the state is Terminated and `start` returns false with no frames |
| `Controller.DefaultSessionInfoIsStable` | ScreenCaptureImpl.hpp:60-62 | the default 30 fps is a 33 ms period; the default crf 23 and bitrate 0 pass the clamps unchanged |
| `Controller.DefaultKeepaliveDisablesWatchdog` | ScreenCaptureImpl.hpp:269 | with the default keep-alive of 0 the watchdog never fires |
| `Controller.DefaultRegionIsEmpty` | ScreenCaptureImpl.hpp:91-98 | the default corners span an empty rectangle |

## Left out

- Pixel capture (`windowAsMatrix`, the GDI setup in the constructor and destructor) is not modelled. It is OS graphics; a frame is an opaque number.
- Encoding (`setupFFSessionInfo`, `setHardwareFrameContext`, `addFrame`, `closeRecording`, `freeSessionInfo`, `av_d3d11va_alloc_context2`, `setupFFMPEGBasedScreenEncode`) is not modelled. These are calls into FFmpeg/CUDA. Encoder setup is the boolean `encoderSetupOk` of `Resume`, and encoding a frame means appending it to `consumed`.
- JSON parsing and `std::atoi` are not modelled. A document is a set of member paths plus integer values. Non-string values and non-numeric text are out of scope.
- `getLastWriteTime` is not modelled. The modification time is a tick input, with 0 meaning missing or unreadable. The clock is an integer input in milliseconds.
- Threads, mutexes, atomics, events, sleeps and `WaitForSingleObject` are not modelled. Threads are explicit interleavings of events. Most events are one mutex-protected body; `Capture` is larger.
- The capture callback's unlocked state test (ScreenCaptureImpl.cpp:546), its frame grab and its locked push (lines 547-550) are one `Capture` event. A state write that lands between the test and the push is therefore not modelled; in the source the frame is still pushed. After a `stop` or a StopRec the state is AboutToStop, the encoding thread keeps running and that frame is still encoded. After the watchdog's write of Terminated (line 632), the encoding thread can see an empty queue and end before the push, so a primary-round frame is captured and never encoded. `Controller.ReachableWithoutWatchdog` does not depend on this, because it assumes the watchdog is disabled.
- Timer callbacks still in flight after `DeleteTimerQueueTimer` are not modelled: a stopped grabber gets no further callbacks.
- The encoding thread's grabber is not modelled beyond its callback. It calls `setMediaCallbackType(SYSTEM_SLEEP)` after `start`, so the timer that `start` armed in timer mode stays armed. In sleep mode `callbackRoutine` does not delete the timer on a stop. The timer therefore keeps invoking the encoding callback, and setting the event again, until the grabber's destructor runs. The model ends the encoding thread at the first callback that returns false and ignores these later callbacks.
- The encoding thread's grabber is assumed to start. A refused event would end that thread at once without encoding anything, and a refused timer would leave it and `start` waiting for ever. Only the capture rounds' start results are event parameters.
- `ALogger::writeLog`, the logger constructors' file I/O, `getCurrentTimestamp` and the assembly of the log line are not modelled. They involve files, the local clock and thread ids.
- `getNV` is modelled for integer values only. It is a template, and other value types go through their own stream insertion.
- `GetModuleBaseNameA` and its `MAX_PATH` truncation are not modelled. The process name is an input of `LogFileName`.
- `ScreenCapture.cpp`, `ScreenCapture.hpp` and `ScreenCaptureInterface.hpp` are not modelled: they only delegate to the implementation. `DisplayManager.h` is not modelled: it holds declarations only.
- `DefaultSegmentDurationSeconds` is a stored constant. No modelled behaviour reads it.
- Integer widths: the model uses unbounded integers. The source's 32-bit products `keepalive × 3 × 1000`, `grabFactor × fps` and `duration × 1000` can overflow for extreme inputs, and so can the corner subtractions.
- `MediaGrabber.Period`: the 32-bit overflow of `grabFactor × fps` is not modelled, because every caller passes the default factor 1.
- `CaptureConfig.ParseConfigFile`: `MissingCrf` stands for a crash, not a `false` return. Reading the absent `crf` member fails rapidjson's assertion in a debug build and hands a null pointer to `std::atoi` otherwise.
- `CaptureConfig.Init`: when parsing ends in `MissingCrf`, `init` does not return false as the model's `Failure` suggests; the process crashes inside `parseConfigFile`.
- `CommandWatcher.WatchdogFires`: the 32-bit overflow of `maxWaitTime * 1000` is not modelled, because it needs a keep-alive above about 700,000 seconds.

=== FILE: capture_config.dfy ===
/**
 * Post-processing of the JSON configuration in `parseConfigFile` and the
 * `init` that calls it. The JSON text is not parsed here: a document is the
 * set of member paths present (written with '/' between levels) together with
 * the integer values the numeric members convert to.
 */
module CaptureConfig {
  import opened Wrappers
  import opened CaptureSession

  const ScreenRecordKey: string := "ScreenRecord"

  /** The members of ScreenRecord that must all be present. */
  const SectionKeys: set<string> := {
    "ScreenRecord/ScreenDimensions", "ScreenRecord/Resolution", "ScreenRecord/fps",
    "ScreenRecord/outputBitrateInMB", "ScreenRecord/Recording"}

  /** The corner and resolution members that must all be present. */
  const DimensionKeys: set<string> := {
    "ScreenRecord/ScreenDimensions/topX1", "ScreenRecord/ScreenDimensions/topY1",
    "ScreenRecord/ScreenDimensions/bottomX2", "ScreenRecord/ScreenDimensions/bottomY2",
    "ScreenRecord/Resolution/resWidth", "ScreenRecord/Resolution/resHeight"}

  /** The recording members that must all be present. */
  const RecordingKeys: set<string> := {
    "ScreenRecord/Recording/segmentDuration", "ScreenRecord/Recording/fileName"}

  /** Read during parsing although no validation step asks for it. */
  const CrfKey: string := "ScreenRecord/crf"

  /** Default quality factor substituted for an out-of-range one. */
  const DefaultCrf: int := 23

  /** A configuration document: the member paths present and the converted member values. */
  datatype Document = Document(
    members: set<string>,
    topX1: int, topY1: int, bottomX2: int, bottomY2: int,
    resWidth: int, resHeight: int,
    fps: int, crf: int, outputBitrateInMB: int,
    segmentDuration: int, fileName: string)

  /** Why the configuration was refused, one kind per early `return false`. */
  datatype ConfigError =
    | CannotOpen              // the file could not be opened
    | MissingScreenRecord     // no ScreenRecord member (also a document that is not an object, in a release build)
    | MissingSection          // a ScreenRecord section or scalar is missing
    | MissingDimensions       // a corner or resolution member is missing
    | MissingRecordingParams  // segmentDuration or fileName is missing
    | MissingCrf              // crf is read but absent: stands for the crash this causes, not a false return

  /** What a successful parse leaves in the capture object. */
  datatype Settings = Settings(
    capture: CaptureParams, srcWidth: int, srcHeight: int,
    session: SessionInfo, segmentDuration: int, playlistFileName: string)

  /** The bitrate cap in megabits: kept when within 1..100, otherwise 0. */
  function ClampBitrate(bitrate: int): (r: int)
    ensures 0 <= r <= 100
    ensures r == bitrate || r == 0
    ensures 1 <= bitrate <= 100 ==> r == bitrate
  {
    if bitrate <= 0 || bitrate > 100 then 0 else bitrate
  }

  /** The quality factor: kept when within the encoder's 0..51, otherwise 23. */
  function ClampCrf(crf: int): (r: int)
    ensures 0 <= r <= 51
    ensures r == crf || r == DefaultCrf
    ensures 0 <= crf <= 51 ==> r == crf
  {
    if crf <= 51 && crf >= 0 then crf else DefaultCrf
  }

  /** Both clamps are idempotent: a clamped value passes through unchanged. */
  lemma ClampsIdempotent(bitrate: int, crf: int)
    ensures ClampBitrate(ClampBitrate(bitrate)) == ClampBitrate(bitrate)
    ensures ClampCrf(ClampCrf(crf)) == ClampCrf(crf)
  {
  }

  /** All members the validation steps ask for. */
  predicate Validates(members: set<string>) {
    && ScreenRecordKey in members
    && SectionKeys <= members
    && DimensionKeys <= members
    && RecordingKeys <= members
  }

  /** The invariants a parsed configuration satisfies. */
  predicate WellFormed(s: Settings) {
    && (s.session.outputBitrateInMB == 0 || 1 <= s.session.outputBitrateInMB <= 100)
    && 0 <= s.session.crf <= 51
    && s.capture.topLeftX1 + s.srcWidth == s.capture.bottomRightX2
    && s.capture.topLeftY1 + s.srcHeight == s.capture.bottomRightY2
  }

  /**
   * `parseConfigFile`: check the required members group by group, then read
   * the values, clamp bitrate and crf and derive the source size.
   */
  function ParseConfigFile(content: Option<Document>): (r: Result<Settings, ConfigError>)
    ensures r.Success? <==> content.Some? && Validates(content.value.members) && CrfKey in content.value.members
    ensures content.None? ==> r == Failure(CannotOpen)
    ensures content.Some? && ScreenRecordKey !in content.value.members ==> r == Failure(MissingScreenRecord)
    ensures r.Success? ==> WellFormed(r.value)
    ensures r.Success? ==>
      var d := content.value;
      && r.value.capture == CaptureParams(d.resWidth, d.resHeight, d.topX1, d.topY1, d.bottomX2, d.bottomY2)
      && r.value.session.fps == d.fps
      && r.value.session.crf == ClampCrf(d.crf)
      && r.value.session.outputBitrateInMB == ClampBitrate(d.outputBitrateInMB)
      && r.value.segmentDuration == d.segmentDuration
      && r.value.playlistFileName == d.fileName
  {
    match content
    case None => Failure(CannotOpen)
    case Some(d) =>
      if ScreenRecordKey !in d.members then Failure(MissingScreenRecord)
      else if !(SectionKeys <= d.members) then Failure(MissingSection)
      else if !(DimensionKeys <= d.members) then Failure(MissingDimensions)
      else if !(RecordingKeys <= d.members) then Failure(MissingRecordingParams)
      else if CrfKey !in d.members then Failure(MissingCrf)
      else
        var capture := CaptureParams(d.resWidth, d.resHeight, d.topX1, d.topY1, d.bottomX2, d.bottomY2);
        var size := SourceSize(capture);
        Success(Settings(capture, size.0, size.1,
                         SessionInfo(d.fps, ClampCrf(d.crf), ClampBitrate(d.outputBitrateInMB)),
                         d.segmentDuration, d.fileName))
  }

  /** The capture object's configuration after a successful `init`. */
  datatype Session = Session(settings: Settings, commandFileName: string, outputFilePath: string, keepaliveSeconds: int)

  /** `init`: parse the configuration, then record the command file, output path and keep-alive interval. */
  function Init(content: Option<Document>, outFilePath: string, commandFile: string, keepAliveFrequency: int): (r: Result<Session, ConfigError>)
    ensures r.Success? <==> ParseConfigFile(content).Success?
    ensures r.Failure? ==> r.error == ParseConfigFile(content).error
    ensures r.Success? ==>
      && r.value.settings == ParseConfigFile(content).value
      && r.value.commandFileName == commandFile
      && r.value.outputFilePath == outFilePath
      && r.value.keepaliveSeconds == keepAliveFrequency
  {
    match ParseConfigFile(content)
    case Failure(e) => Failure(e)
    case Success(s) => Success(Session(s, commandFile, outFilePath, keepAliveFrequency))
  }

  /** A document lacking only crf passes every validation step and still fails, when crf is read. */
  lemma CrfIsReadUnvalidated(d: Document)
    requires Validates(d.members) && CrfKey !in d.members
    ensures ParseConfigFile(Some(d)) == Failure(MissingCrf)
  {
  }
}

=== FILE: capture_session.dfy ===
/**
 * The recording-session vocabulary of ScreenCaptureImpl.hpp: the four-valued
 * recording state, the running test, the extra-capture constant and the
 * default values every session field starts from.
 */
module CaptureSession {

  /** The shared recording state. The enumeration has exactly these four values. */
  datatype RecordingState = NotStarted | Started | AboutToStop | Terminated

  /** `isCaptureSessionRunning`: every state but Terminated counts as running. */
  function IsCaptureSessionRunning(s: RecordingState): (running: bool)
    ensures running <==> s.NotStarted? || s.Started? || s.AboutToStop?
  {
    s != Terminated
  }

  /** Seconds of extra capture performed after a stop, to recover frames the encoder still holds. */
  const ExtraCaptureDurationSeconds: int := 2

  /** The encoder-session fields the core reads: capture rate, quality factor and bitrate cap. */
  datatype SessionInfo = SessionInfo(fps: int, crf: int, outputBitrateInMB: int)

  /** Field initialisers of the encoder-session record. */
  const DefaultSessionInfo: SessionInfo := SessionInfo(30, 23, 0)

  /** The capture region: output resolution and the two corners of the captured rectangle. */
  datatype CaptureParams = CaptureParams(
    resolutionWidth: int, resolutionHeight: int,
    topLeftX1: int, topLeftY1: int,
    bottomRightX2: int, bottomRightY2: int)

  /** Field initialisers of the capture region. */
  const DefaultCaptureParams: CaptureParams := CaptureParams(3240, 2160, 0, 0, 0, 0)

  /** Keep-alive interval in seconds before `init` sets it; 0 disables the watchdog. */
  const DefaultKeepaliveSeconds: int := 0

  /** Segment duration in seconds before the configuration sets it. */
  const DefaultSegmentDurationSeconds: int := 10

  /** Width and height of the captured rectangle: bottom-right corner minus top-left corner. */
  function SourceSize(p: CaptureParams): (size: (int, int))
    ensures p.topLeftX1 + size.0 == p.bottomRightX2
    ensures p.topLeftY1 + size.1 == p.bottomRightY2
  {
    (p.bottomRightX2 - p.topLeftX1, p.bottomRightY2 - p.topLeftY1)
  }
}

=== FILE: command_watcher.dfy ===
/**
 * The command-file watcher of `startCommandProcessing`: a polling loop over the
 * command file's modification time with a keep-alive watchdog, the
 * classification of the file's first line, and the one-shot start/abort
 * decision handed to the thread blocked in `start`.
 *
 * One loop iteration is one `Step`. The file system and the clock are the
 * inputs of a `Tick`: the modification time in seconds (0 when the file is
 * missing or cannot be examined), the current time in milliseconds, and the
 * first line the file would yield if opened (None when it cannot be opened).
 */
module CommandWatcher {
  import opened Wrappers
  import opened CaptureSession

  /** Multiplier turning the keep-alive interval into the watchdog's allowance. */
  const KeepaliveFactor: int := 3

  /** The two command lines the watcher recognises, compared verbatim. */
  const StartLine: string := "StartRec"
  const StopLine: string := "StopRec"

  /** What one poll of the file system and the clock yields. */
  datatype Tick = Tick(mtime: int, nowMs: int, firstLine: Option<string>)

  /**
   * The watcher's state: the remembered modification time, the one-shot
   * decision (None until `call_once` has run), the shared recording state and
   * whether the loop has been left.
   */
  datatype Watcher = Watcher(stLocal: int, decision: Option<bool>, state: RecordingState, done: bool)

  /** The watcher as the command thread starts it: nothing seen, nothing decided. */
  function Initial(state: RecordingState): Watcher {
    Watcher(0, None, state, false)
  }

  /** The watchdog's allowance in seconds. */
  function MaxWaitTime(keepaliveSeconds: int): int {
    keepaliveSeconds * KeepaliveFactor
  }

  /**
   * The watchdog trips when it is enabled (a positive allowance) and the
   * command file was last modified strictly more than the allowance ago.
   */
  function WatchdogFires(keepaliveSeconds: int, mtime: int, nowMs: int): (fires: bool)
    ensures fires ==> keepaliveSeconds > 0 && nowMs > mtime * 1000
    ensures fires ==> nowMs - mtime * 1000 > MaxWaitTime(keepaliveSeconds) * 1000
    ensures keepaliveSeconds > 0 && nowMs - mtime * 1000 > keepaliveSeconds * KeepaliveFactor * 1000 ==> fires
  {
    var maxWait := MaxWaitTime(keepaliveSeconds);
    maxWait > 0 && nowMs - mtime * 1000 > maxWait * 1000
  }

  /**
   * `setScreenSessionState`: only the first call has an effect. `true` starts
   * the session; `false` terminates it only if it never left NotStarted. Either
   * way the promise receives the value.
   */
  function Decide(w: Watcher, value: bool): (r: Watcher)
    ensures w.decision.Some? ==> r == w
    ensures w.decision.None? ==> r.decision == Some(value)
    ensures r.stLocal == w.stLocal && r.done == w.done
    ensures w.decision.None? && value ==> r.state == Started
    ensures w.decision.None? && !value ==>
              (r.state == Terminated <==> w.state in {NotStarted, Terminated})
    ensures !value && w.state != NotStarted ==> r.state == w.state
  {
    if w.decision.Some? then w
    else if value then w.(decision := Some(true), state := Started)
    else w.(decision := Some(false), state := if w.state == NotStarted then Terminated else w.state)
  }

  /** Leaving the loop: the trailing `setScreenSessionState(false)` always runs. */
  function Exit(w: Watcher): (r: Watcher)
    ensures r.done && r.decision.Some?
    ensures w.decision.Some? ==> r.decision == w.decision && r.state == w.state
    ensures w.decision.None? ==> r.decision == Some(false)
    ensures r.stLocal == w.stLocal
  {
    Decide(w, false).(done := true)
  }

  /** Acting on the file's first line once it has been read. */
  function ReadCommand(w: Watcher, firstLine: Option<string>): (r: Watcher)
    ensures firstLine != Some(StartLine) && firstLine != Some(StopLine) ==> r == w
    ensures r.stLocal == w.stLocal
    ensures r.done <==> w.done || firstLine == Some(StopLine)
    ensures firstLine == Some(StopLine) ==> r.state == AboutToStop && r.decision.Some?
    ensures firstLine == Some(StartLine) ==> r.decision == Some(true) || r.decision == w.decision
    ensures w.decision.Some? ==> r.decision == w.decision
  {
    match firstLine
    case None => w
    case Some(line) =>
      if line == StartLine then Decide(w, true)
      else if line == StopLine then Exit(w.(state := AboutToStop))
      else w
  }

  /**
   * Whether a tick on which the watchdog stays quiet opens the file: both the
   * first nonzero mtime and any later mtime other than the remembered one do.
   */
  predicate ReadsFile(w: Watcher, t: Tick) {
    t.mtime != w.stLocal
  }

  /**
   * One iteration of the watcher loop. A watcher that has left the loop does
   * nothing more.
   */
  function Step(keepaliveSeconds: int, w: Watcher, t: Tick): (r: Watcher)
    ensures w.done ==> r == w
    ensures !w.done && r.done ==> r.decision.Some?
    ensures w.decision.Some? ==> r.decision == w.decision
    ensures w.stLocal != 0 ==> r.stLocal == w.stLocal
    ensures r.stLocal == w.stLocal || (w.stLocal == 0 && r.stLocal == t.mtime)
    ensures r.state == Started ==> w.state == Started || (w.decision.None? && r.decision == Some(true))
  {
    if w.done then w
    else if WatchdogFires(keepaliveSeconds, t.mtime, t.nowMs) then Exit(w.(state := Terminated))
    else if t.mtime != 0 && w.stLocal == 0 then ReadCommand(w.(stLocal := t.mtime), t.firstLine)
    else if t.mtime == w.stLocal then w
    else ReadCommand(w, t.firstLine)
  }

  /** A sequence of loop iterations. */
  function Run(keepaliveSeconds: int, w: Watcher, ticks: seq<Tick>): Watcher
    decreases |ticks|
  {
    if |ticks| == 0 then w else Run(keepaliveSeconds, Step(keepaliveSeconds, w, ticks[0]), ticks[1..])
  }

  /** A file modified no longer ago than the allowance is tolerated, whatever the keep-alive. */
  lemma FreshFileTolerated(keepaliveSeconds: int, mtime: int, nowMs: int)
    requires nowMs - mtime * 1000 <= MaxWaitTime(keepaliveSeconds) * 1000
    ensures !WatchdogFires(keepaliveSeconds, mtime, nowMs)
  {
  }

  /** The watchdog is disabled whenever its allowance is not positive. */
  lemma WatchdogDisabled(keepaliveSeconds: int, mtime: int, nowMs: int)
    requires MaxWaitTime(keepaliveSeconds) <= 0
    ensures !WatchdogFires(keepaliveSeconds, mtime, nowMs)
  {
  }

  /**
   * The watchdog's comparison is strict: exactly the allowance after the last
   * modification does not trip it, one millisecond more does.
   */
  lemma WatchdogStrictBoundary(keepaliveSeconds: int, mtime: int)
    requires keepaliveSeconds > 0
    ensures !WatchdogFires(keepaliveSeconds, mtime, mtime * 1000 + MaxWaitTime(keepaliveSeconds) * 1000)
    ensures WatchdogFires(keepaliveSeconds, mtime, mtime * 1000 + MaxWaitTime(keepaliveSeconds) * 1000 + 1)
  {
  }

  /**
   * A missing command file reads as modification time 0, so with the watchdog
   * enabled any clock past the allowance since the epoch trips it.
   */
  lemma MissingFileTripsWatchdog(keepaliveSeconds: int, nowMs: int)
    requires keepaliveSeconds > 0
    requires nowMs > MaxWaitTime(keepaliveSeconds) * 1000
    ensures WatchdogFires(keepaliveSeconds, 0, nowMs)
  {
  }

  /** A tripped watchdog terminates the session and leaves the loop, resolving the decision to abort if it was open. */
  lemma WatchdogTerminates(keepaliveSeconds: int, w: Watcher, t: Tick)
    requires !w.done
    requires WatchdogFires(keepaliveSeconds, t.mtime, t.nowMs)
    ensures var r := Step(keepaliveSeconds, w, t);
      r.done && r.state == Terminated && r.stLocal == w.stLocal &&
      r.decision == (if w.decision.Some? then w.decision else Some(false))
  {
  }

  /**
   * Without the watchdog the loop is left only through a StopRec line, which
   * leaves the state AboutToStop.
   */
  lemma ExitWithoutWatchdogIsStop(keepaliveSeconds: int, w: Watcher, t: Tick)
    requires !w.done
    requires !WatchdogFires(keepaliveSeconds, t.mtime, t.nowMs)
    requires Step(keepaliveSeconds, w, t).done
    ensures ReadsFile(w, t) && t.firstLine == Some(StopLine)
    ensures Step(keepaliveSeconds, w, t).state == AboutToStop
  {
  }

  /**
   * A StopRec line that is read leaves the loop with the state AboutToStop,
   * whether or not StartRec was seen before; without a prior StartRec the
   * decision resolves to abort but the state is not set to Terminated.
   */
  lemma StopLineExits(keepaliveSeconds: int, w: Watcher, t: Tick)
    requires !w.done
    requires !WatchdogFires(keepaliveSeconds, t.mtime, t.nowMs)
    requires ReadsFile(w, t) && t.firstLine == Some(StopLine)
    ensures var r := Step(keepaliveSeconds, w, t);
      r.done && r.state == AboutToStop &&
      r.decision == (if w.decision.Some? then w.decision else Some(false))
  {
  }

  /** A StartRec line resolves an open decision to start; a repeated StartRec changes nothing but the remembered mtime. */
  lemma StartLineStarts(keepaliveSeconds: int, w: Watcher, t: Tick)
    requires !w.done
    requires !WatchdogFires(keepaliveSeconds, t.mtime, t.nowMs)
    requires ReadsFile(w, t) && t.firstLine == Some(StartLine)
    ensures var r := Step(keepaliveSeconds, w, t);
      !r.done && r.decision == (if w.decision.Some? then w.decision else Some(true)) &&
      (w.decision.None? ==> r.state == Started) &&
      (w.decision.Some? ==> r.state == w.state)
  {
  }

  /** An unchanged modification time means the file is not read and nothing changes. */
  lemma UnchangedMtimeIsIgnored(keepaliveSeconds: int, w: Watcher, t: Tick)
    requires !WatchdogFires(keepaliveSeconds, t.mtime, t.nowMs)
    requires t.mtime == w.stLocal
    ensures Step(keepaliveSeconds, w, t) == w
  {
  }

  /** Whatever the first line would have been, a tick that does not read the file has the same effect. */
  lemma UnreadLineIrrelevant(keepaliveSeconds: int, w: Watcher, mtime: int, nowMs: int, a: Option<string>, b: Option<string>)
    requires !ReadsFile(w, Tick(mtime, nowMs, a))
    ensures Step(keepaliveSeconds, w, Tick(mtime, nowMs, a)) == Step(keepaliveSeconds, w, Tick(mtime, nowMs, b))
  {
  }

  /**
   * A line other than StartRec and StopRec, or a file that cannot be opened,
   * changes nothing beyond remembering the first nonzero modification time.
   */
  lemma UnrecognisedLineIsIgnored(keepaliveSeconds: int, w: Watcher, t: Tick)
    requires !w.done
    requires !WatchdogFires(keepaliveSeconds, t.mtime, t.nowMs)
    requires t.firstLine.None? || (t.firstLine.value != StartLine && t.firstLine.value != StopLine)
    ensures Step(keepaliveSeconds, w, t) ==
      (if t.mtime != 0 && w.stLocal == 0 then w.(stLocal := t.mtime) else w)
  {
  }

  /** Over any number of iterations a resolved decision never changes: the promise is set once. */
  lemma {:induction false} DecisionIsFinal(keepaliveSeconds: int, w: Watcher, ticks: seq<Tick>)
    requires w.decision.Some?
    ensures Run(keepaliveSeconds, w, ticks).decision == w.decision
    decreases |ticks|
  {
    if |ticks| > 0 {
      DecisionIsFinal(keepaliveSeconds, Step(keepaliveSeconds, w, ticks[0]), ticks[1..]);
    }
  }

  /**
   * Over any number of iterations the remembered modification time is
   * assigned at most once: once nonzero it never changes again.
   */
  lemma {:induction false} StLocalAssignedOnce(keepaliveSeconds: int, w: Watcher, ticks: seq<Tick>)
    requires w.stLocal != 0
    ensures Run(keepaliveSeconds, w, ticks).stLocal == w.stLocal
    decreases |ticks|
  {
    if |ticks| > 0 {
      StLocalAssignedOnce(keepaliveSeconds, Step(keepaliveSeconds, w, ticks[0]), ticks[1..]);
    }
  }

  /** The watcher's own invariant: an exited loop has resolved the promise, and Started implies a start decision. */
  predicate Consistent(w: Watcher) {
    && (w.done ==> w.decision.Some?)
    && (w.state == Started ==> w.decision == Some(true))
  }

  /**
   * From a fresh start, every reachable watcher is consistent: whichever way
   * the loop is left, the blocked caller has received a value, and the state
   * is Started only after a start decision.
   */
  lemma {:induction false} RunStaysConsistent(keepaliveSeconds: int, w: Watcher, ticks: seq<Tick>)
    requires Consistent(w)
    ensures Consistent(Run(keepaliveSeconds, w, ticks))
    decreases |ticks|
  {
    if |ticks| > 0 {
      var w' := Step(keepaliveSeconds, w, ticks[0]);
      assert Consistent(w');
      RunStaysConsistent(keepaliveSeconds, w', ticks[1..]);
    }
  }

  /** With the watchdog disabled, a command file that never changes keeps the watcher waiting forever. */
  lemma {:induction false} SilentFileWaitsForever(keepaliveSeconds: int, w: Watcher, ticks: seq<Tick>)
    requires MaxWaitTime(keepaliveSeconds) <= 0
    requires forall i | 0 <= i < |ticks| :: ticks[i].mtime == w.stLocal
    ensures Run(keepaliveSeconds, w, ticks) == w
    decreases |ticks|
  {
    if |ticks| > 0 {
      WatchdogDisabled(keepaliveSeconds, ticks[0].mtime, ticks[0].nowMs);
      assert Step(keepaliveSeconds, w, ticks[0]) == w;
      SilentFileWaitsForever(keepaliveSeconds, w, ticks[1..]);
    }
  }
}

=== FILE: controller.dfy ===
/**
 * The recording controller: `start`, `stop` and the three threads they set
 * going — the command watcher, the capture thread (`startScreenRecording`)
 * and the encoding thread (`produceSegmentedVideosFromScreenCapture`) —
 * as explicit interleavings of events on one shared world.
 *
 * Each event is one indivisible action of one thread: a watcher iteration, a
 * call of `stop`, the blocked caller waking up, one producer or consumer
 * callback, or one of the producer thread's steps between its two capture
 * rounds. Clocks, file contents, the encoder's setup result and whether the
 * operating system grants each capture round's event, timer queue and timer
 * arrive as event parameters.
 */
module Controller {
  import opened Wrappers
  import opened CaptureSession
  import CW = CommandWatcher
  import opened FrameQueue
  import MediaGrabber
  import CaptureConfig

  /** Where the thread that called `start` is. */
  datatype Caller = Blocked | Joining | Returned(value: bool)

  /**
   * The capture thread's progress: not created, created but not yet at its
   * snapshot, the primary round, between the rounds, the extra-duration round,
   * after it, finished (Terminated written), or blocked for ever in a wait
   * on a round whose timer could not be created.
   */
  datatype Producer =
    | NotLaunched
    | Spawned
    | Primary(snapshot: RecordingState, startMs: int)
    | PrimaryDone
    | Extra(snapshot: RecordingState, startMs: int)
    | ExtraDone
    | Finished
    | Hung

  /** Everything the threads share: the watcher (which holds the recording state), the caller, both workers and the queue. */
  datatype World = World(watcher: CW.Watcher, caller: Caller, producer: Producer, consumerDone: bool, pipe: Pipe) {
    function State(): RecordingState { watcher.state }
  }

  /** A freshly constructed capture object on which `start` has just been called. */
  const Initial: World := World(CW.Initial(NotStarted), Blocked, NotLaunched, false, EmptyPipe)

  /** One indivisible action of one thread. */
  datatype Event =
    | Poll(tick: CW.Tick)               // one iteration of the watcher loop
    | StopCall                          // `stop` called by the embedding application
    | Resume(encoderSetupOk: bool)      // the caller receives the decision and sets up the encoder
    | Snapshot(nowMs: int, res: MediaGrabber.Resources) // the capture thread reads the state and starts its grabber
    | Capture(frame: Frame, nowMs: int) // one capture callback: its state test, grab and push as one step
    | Rearm(nowMs: int, res: MediaGrabber.Resources)    // the capture thread starts the extra-duration round
    | Finish                            // the capture thread writes Terminated
    | Encode                            // one encoding callback
    | Join                              // both workers joined: `start` returns

  /** Every resource a grabber asks for is granted. */
  const Granted: MediaGrabber.Resources := MediaGrabber.Resources(true, true, true)

  /**
   * How the capture thread's wait on a round's grabber goes. The grabber uses
   * the timer backend; its rate only sets the period, which the interleaving
   * does not represent, so the default rate stands in for the configured one.
   */
  function RoundWait(durationSec: int, res: MediaGrabber.Resources, nowMs: int): (wait: MediaGrabber.Wait)
    ensures wait == MediaGrabber.FailsAtOnce <==> !res.eventOk
    ensures wait == MediaGrabber.Forever <==> res.eventOk && !(res.timerQueueOk && res.timerOk)
  {
    MediaGrabber.TimerStartWait(DefaultSessionInfo.fps, durationSec, 1, res, nowMs);
    MediaGrabber.WaitAfterStart(MediaGrabber.Start(MediaGrabber.New(DefaultSessionInfo.fps, durationSec, 1), res, nowMs))
  }

  /**
   * The capture thread starting a round: the round runs when its wait can end
   * by a signal, is over at once when the wait fails, and leaves the thread
   * hung when nothing will ever signal.
   */
  function BeginRound(running: Producer, over: Producer, durationSec: int, res: MediaGrabber.Resources, nowMs: int): Producer {
    match RoundWait(durationSec, res, nowMs)
    case UntilSignalled => running
    case FailsAtOnce => over
    case Forever => Hung
  }

  /** The run-ending rule of the capture grabber applied to one callback result. */
  function AfterCapture(p: Producer, keepGoing: bool, nowMs: int): Producer {
    match p
    case Primary(snapshot, startMs) =>
      if MediaGrabber.StopsAfter(keepGoing, 0, nowMs - startMs) then PrimaryDone else p
    case Extra(snapshot, startMs) =>
      if MediaGrabber.StopsAfter(keepGoing, ExtraCaptureDurationSeconds, nowMs - startMs) then ExtraDone else p
    case _ => p
  }

  /**
   * The capture rounds' stopping step agrees with the grabber's own: for a
   * running grabber with the round's duration and start time, a round ends
   * exactly when `callbackRoutine` drops the grabber's run flag.
   */
  lemma AfterCaptureIsCallbackRoutine(p: Producer, keepGoing: bool, nowMs: int, g: MediaGrabber.Grabber)
    requires p.Primary? || p.Extra?
    requires g.runState && g.startMs == p.startMs
    requires g.durationSec == (if p.Primary? then 0 else ExtraCaptureDurationSeconds)
    ensures AfterCapture(p, keepGoing, nowMs) != p <==> !MediaGrabber.CallbackRoutine(g, MediaGrabber.Invocation(keepGoing, nowMs)).runState
  {
  }

  /** The invariant every reachable world satisfies. */
  predicate Inv(w: World) {
    && Fifo(w.pipe)
    && CW.Consistent(w.watcher)
    && (!w.caller.Blocked? ==> w.watcher.decision.Some?)
    && (w.producer != NotLaunched ==> w.watcher.decision == Some(true) && !w.caller.Blocked?)
    && (w.producer == NotLaunched ==> w.pipe == EmptyPipe && !w.consumerDone && !w.caller.Joining?)
    && (w.caller == Returned(true) ==> w.producer == Finished && w.consumerDone)
    && (w.caller == Returned(false) ==> w.producer == NotLaunched)
  }

  /** The effect of one event. Events a thread cannot perform in the current world change nothing. */
  function Apply(keepaliveSeconds: int, w: World, e: Event): (r: World)
    ensures Inv(w) ==> Inv(r)
    ensures w.watcher.decision.Some? ==> r.watcher.decision == w.watcher.decision
  {
    match e
    case Poll(t) => w.(watcher := CW.Step(keepaliveSeconds, w.watcher, t))
    case StopCall => w.(watcher := w.watcher.(state := AboutToStop))
    case Resume(encoderSetupOk) =>
      if w.caller.Blocked? && w.watcher.decision.Some? then
        if w.watcher.decision.value && encoderSetupOk then w.(caller := Joining, producer := Spawned)
        else w.(caller := Returned(false))
      else w
    case Snapshot(nowMs, res) =>
      if w.producer == Spawned then w.(producer := BeginRound(Primary(w.State(), nowMs), PrimaryDone, 0, res, nowMs)) else w
    case Capture(frame, nowMs) =>
      if w.producer.Primary? || w.producer.Extra? then
        var t := ProducerTick(w.pipe, w.State(), w.producer.snapshot, frame);
        w.(pipe := t.pipe, producer := AfterCapture(w.producer, t.keepGoing, nowMs))
      else w
    case Rearm(nowMs, res) =>
      if w.producer == PrimaryDone then
        w.(producer := BeginRound(Extra(w.State(), nowMs), ExtraDone, ExtraCaptureDurationSeconds, res, nowMs))
      else w
    case Finish =>
      if w.producer == ExtraDone then w.(producer := Finished, watcher := w.watcher.(state := Terminated)) else w
    case Encode =>
      if w.caller.Joining? && !w.consumerDone then
        var t := ConsumerTick(w.pipe, w.State());
        w.(pipe := t.pipe, consumerDone := !t.keepGoing)
      else w
    case Join =>
      if w.caller.Joining? && w.producer == Finished && w.consumerDone then w.(caller := Returned(true)) else w
  }

  /** Applying a sequence of events in order. */
  function Run(keepaliveSeconds: int, w: World, events: seq<Event>): World
    decreases |events|
  {
    if |events| == 0 then w else Run(keepaliveSeconds, Apply(keepaliveSeconds, w, events[0]), events[1..])
  }

  /** Every interleaving preserves the invariant. */
  lemma {:induction false} RunPreservesInv(keepaliveSeconds: int, w: World, events: seq<Event>)
    requires Inv(w)
    ensures Inv(Run(keepaliveSeconds, w, events))
    decreases |events|
  {
    if |events| > 0 {
      RunPreservesInv(keepaliveSeconds, Apply(keepaliveSeconds, w, events[0]), events[1..]);
    }
  }

  /**
   * Along every interleaving from a fresh `start`: the frames handed to the
   * encoder are a prefix of those captured; no frame is captured unless the
   * decision was to start; the session is Started only after a start
   * decision; an exited watcher has always resolved the decision; and `start`
   * returns true only after both workers finished, false whenever the
   * decision was to abort.
   */
  lemma ReachableWorlds(keepaliveSeconds: int, events: seq<Event>)
    ensures var w := Run(keepaliveSeconds, Initial, events);
      && w.pipe.consumed <= w.pipe.produced
      && (w.pipe.produced != [] ==> w.watcher.decision == Some(true))
      && (w.State() == Started ==> w.watcher.decision == Some(true))
      && (w.watcher.done ==> w.watcher.decision.Some?)
      && (w.caller == Returned(true) ==> w.producer == Finished && w.consumerDone)
      && (w.watcher.decision == Some(false) ==> w.caller != Returned(true) && w.pipe.produced == [])
  {
    RunPreservesInv(keepaliveSeconds, Initial, events);
    var w := Run(keepaliveSeconds, Initial, events);
    assert w.pipe.produced == w.pipe.consumed + w.pipe.queue;
  }

  /** Whatever else happens, a resolved decision stays as it was: the promise is fulfilled once. */
  lemma {:induction false} DecisionIsFinal(keepaliveSeconds: int, w: World, events: seq<Event>)
    requires w.watcher.decision.Some?
    ensures Run(keepaliveSeconds, w, events).watcher.decision == w.watcher.decision
    decreases |events|
  {
    if |events| > 0 {
      DecisionIsFinal(keepaliveSeconds, Apply(keepaliveSeconds, w, events[0]), events[1..]);
    }
  }

  /**
   * `start`'s result: false when the decision is to abort or the encoder
   * cannot be set up, in which case no worker is created; otherwise the
   * workers are created and `start` stays blocked until both have finished.
   */
  lemma ResumeOutcome(keepaliveSeconds: int, w: World, ok: bool)
    requires Inv(w) && w.caller.Blocked? && w.watcher.decision.Some?
    ensures var r := Apply(keepaliveSeconds, w, Resume(ok));
      && (r.caller == Returned(false) <==> !(w.watcher.decision.value && ok))
      && (r.caller.Joining? <==> w.watcher.decision.value && ok)
      && (r.caller.Joining? ==> r.producer == Spawned && !r.consumerDone)
      && (r.caller == Returned(false) ==> r.producer == NotLaunched && r.pipe == EmptyPipe)
  {
  }

  /** The caller stays blocked until the watcher has resolved the decision. */
  lemma BlockedUntilDecided(keepaliveSeconds: int, w: World, ok: bool)
    requires w.caller.Blocked? && w.watcher.decision.None?
    ensures Apply(keepaliveSeconds, w, Resume(ok)) == w
  {
  }

  /** `stop` writes AboutToStop whatever the state, so even a terminated session reads as running again. */
  lemma StopIsUnconditional(keepaliveSeconds: int, w: World)
    ensures Apply(keepaliveSeconds, w, StopCall).State() == AboutToStop
    ensures w.State() == Terminated ==> IsCaptureSessionRunning(Apply(keepaliveSeconds, w, StopCall).State())
  {
  }

  /**
   * A capture callback appends exactly one frame at the back, and keeps its
   * round going, precisely when the live state equals the round's snapshot;
   * otherwise it appends nothing and ends the round.
   */
  lemma CaptureFollowsSnapshot(keepaliveSeconds: int, w: World, frame: Frame, nowMs: int)
    requires w.producer.Primary?
    ensures var r := Apply(keepaliveSeconds, w, Capture(frame, nowMs));
      && (w.State() == w.producer.snapshot ==> r.pipe.queue == w.pipe.queue + [frame] && r.producer == w.producer)
      && (w.State() != w.producer.snapshot ==> r.pipe == w.pipe && r.producer == PrimaryDone)
  {
  }

  /**
   * The extra-duration round is bounded: the first capture callback at least
   * two seconds after it started ends it, whatever the state; the thread then
   * writes Terminated unconditionally.
   */
  lemma ExtraRoundIsBounded(keepaliveSeconds: int, w: World, frame: Frame, nowMs: int)
    requires w.producer.Extra?
    requires nowMs - w.producer.startMs >= ExtraCaptureDurationSeconds * 1000
    ensures var r := Apply(keepaliveSeconds, w, Capture(frame, nowMs));
      r.producer == ExtraDone &&
      Apply(keepaliveSeconds, r, Finish).State() == Terminated &&
      Apply(keepaliveSeconds, r, Finish).producer == Finished
  {
  }

  /**
   * Starting the primary round: it runs only when the event, the timer queue
   * and the timer are all granted. Without an event the wait fails at once and
   * the round is over before it captured anything; without a timer nothing
   * will ever signal and the capture thread hangs.
   */
  lemma PrimaryRoundStart(keepaliveSeconds: int, w: World, nowMs: int, res: MediaGrabber.Resources)
    requires w.producer == Spawned
    ensures var r := Apply(keepaliveSeconds, w, Snapshot(nowMs, res));
      && r.pipe == w.pipe && r.State() == w.State()
      && (r.producer == Primary(w.State(), nowMs) <==> res == Granted)
      && (!res.eventOk ==> r.producer == PrimaryDone)
      && (res.eventOk && !(res.timerQueueOk && res.timerOk) ==> r.producer == Hung)
  {
  }

  /**
   * Starting the extra round: likewise it runs only with every resource
   * granted, is skipped without an event (so the thread goes straight on to
   * write Terminated), and hangs without a timer.
   */
  lemma ExtraRoundStart(keepaliveSeconds: int, w: World, nowMs: int, res: MediaGrabber.Resources)
    requires w.producer == PrimaryDone
    ensures var r := Apply(keepaliveSeconds, w, Rearm(nowMs, res));
      && r.pipe == w.pipe && r.State() == w.State()
      && (r.producer == Extra(w.State(), nowMs) <==> res == Granted)
      && (!res.eventOk ==> r.producer == ExtraDone && Apply(keepaliveSeconds, r, Finish).State() == Terminated)
      && (res.eventOk && !(res.timerQueueOk && res.timerOk) ==> r.producer == Hung)
  {
  }

  /**
   * A hung capture thread never finishes: whatever happens afterwards it stays
   * hung, captures nothing more, and a caller waiting in `start` never returns.
   */
  lemma {:induction false} HungNeverReturns(keepaliveSeconds: int, w: World, events: seq<Event>)
    requires w.producer == Hung && !w.caller.Blocked?
    ensures var r := Run(keepaliveSeconds, w, events);
      && r.producer == Hung && r.pipe.produced == w.pipe.produced
      && (w.caller.Joining? ==> r.caller.Joining?)
    decreases |events|
  {
    if |events| > 0 {
      HungNeverReturns(keepaliveSeconds, Apply(keepaliveSeconds, w, events[0]), events[1..]);
    }
  }

  /** The encoding thread never gives up while frames are waiting, nor while the session is running. */
  lemma ConsumerOutlastsQueue(keepaliveSeconds: int, w: World)
    requires w.caller.Joining? && !w.consumerDone
    ensures var r := Apply(keepaliveSeconds, w, Encode);
      r.consumerDone <==> w.pipe.queue == [] && w.State() == Terminated
  {
  }

  /** A run of `n` encoding callbacks. */
  function Encodes(n: nat): (es: seq<Event>)
    ensures |es| == n && forall i | 0 <= i < n :: es[i] == Encode
  {
    seq(n, _ => Encode)
  }

  /**
   * After the capture thread has finished and the state is Terminated, one
   * encoding callback per waiting frame delivers every captured frame to the
   * encoder in order, one more ends the encoding thread, and `start` can
   * return true.
   */
  lemma {:induction false} DrainAfterFinish(keepaliveSeconds: int, w: World)
    requires Inv(w) && w.caller.Joining? && !w.consumerDone
    requires w.producer == Finished && w.State() == Terminated
    ensures var r := Run(keepaliveSeconds, w, Encodes(|w.pipe.queue| + 1));
      && r.pipe.queue == [] && r.pipe.consumed == w.pipe.produced && r.consumerDone
      && Apply(keepaliveSeconds, r, Join).caller == Returned(true)
    decreases |w.pipe.queue|
  {
    var es := Encodes(|w.pipe.queue| + 1);
    var next := Apply(keepaliveSeconds, w, Encode);
    assert es[1..] == Encodes(|w.pipe.queue|);
    if |w.pipe.queue| > 0 {
      assert next.pipe.queue == w.pipe.queue[1..];
      assert es[1..] == Encodes(|next.pipe.queue| + 1);
      DrainAfterFinish(keepaliveSeconds, next);
    } else {
      assert next.consumerDone;
      assert Run(keepaliveSeconds, next, es[1..]) == next;
    }
  }

  /** Encoding callbacks after the encoding thread has ended change nothing. */
  lemma {:induction false} EncodesAfterDone(keepaliveSeconds: int, w: World, n: nat)
    requires w.consumerDone
    ensures Run(keepaliveSeconds, w, Encodes(n)) == w
  {
    if n > 0 {
      assert Encodes(n)[1..] == Encodes(n - 1);
      EncodesAfterDone(keepaliveSeconds, w, n - 1);
    }
  }

  /**
   * The encoding thread ends only after the capture thread has finished and
   * with nothing left in the queue; and a session Terminated after a start
   * decision has a finished capture thread.
   */
  predicate ConsumerBehind(w: World) {
    && (w.State() == Terminated && w.watcher.decision == Some(true) ==> w.producer == Finished)
    && (w.consumerDone ==> w.producer == Finished && w.pipe.queue == [])
  }

  /** With the watchdog disabled, every action keeps the encoding thread behind the capture thread. */
  lemma ApplyKeepsConsumerBehind(keepaliveSeconds: int, w: World, e: Event)
    requires CW.MaxWaitTime(keepaliveSeconds) <= 0
    requires Inv(w) && ConsumerBehind(w)
    ensures ConsumerBehind(Apply(keepaliveSeconds, w, e))
  {
    match e
    case Poll(t) =>
      CW.WatchdogDisabled(keepaliveSeconds, t.mtime, t.nowMs);
    case _ =>
  }

  /** With the watchdog disabled, every interleaving keeps the encoding thread behind the capture thread. */
  lemma {:induction false} RunKeepsConsumerBehind(keepaliveSeconds: int, w: World, events: seq<Event>)
    requires CW.MaxWaitTime(keepaliveSeconds) <= 0
    requires Inv(w) && ConsumerBehind(w)
    ensures var r := Run(keepaliveSeconds, w, events); Inv(r) && ConsumerBehind(r)
    decreases |events|
  {
    if |events| > 0 {
      var next := Apply(keepaliveSeconds, w, events[0]);
      ApplyKeepsConsumerBehind(keepaliveSeconds, w, events[0]);
      RunKeepsConsumerBehind(keepaliveSeconds, next, events[1..]);
    }
  }

  /**
   * With the watchdog disabled, along every interleaving from a fresh `start`
   * the encoding thread never ends before the capture thread has finished,
   * and it leaves no frame in the queue.
   */
  lemma ReachableWithoutWatchdog(keepaliveSeconds: int, events: seq<Event>)
    requires CW.MaxWaitTime(keepaliveSeconds) <= 0
    ensures var w := Run(keepaliveSeconds, Initial, events);
      && Inv(w) && ConsumerBehind(w)
      && (w.consumerDone ==> w.producer == Finished && w.pipe.consumed == w.pipe.produced)
  {
    RunKeepsConsumerBehind(keepaliveSeconds, Initial, events);
  }

  /**
   * With the watchdog disabled, once the capture thread has finished and the
   * state is Terminated, queue length + 1 encoding callbacks leave every
   * captured frame delivered in order, the encoding thread ended and `start`
   * able to return true, whether or not the encoding thread had already ended.
   */
  lemma DeliveredWithoutWatchdog(keepaliveSeconds: int, w: World)
    requires Inv(w) && ConsumerBehind(w)
    requires w.producer == Finished && w.State() == Terminated
    ensures var r := Run(keepaliveSeconds, w, Encodes(|w.pipe.queue| + 1));
      && r.pipe.consumed == w.pipe.produced && r.pipe.queue == [] && r.consumerDone
      && Apply(keepaliveSeconds, r, Join).caller == Returned(true)
  {
    if w.consumerDone {
      EncodesAfterDone(keepaliveSeconds, w, |w.pipe.queue| + 1);
    } else {
      DrainAfterFinish(keepaliveSeconds, w);
    }
  }

  /**
   * The capture thread snapshots the state only when it starts running. If a
   * stop lands between the start decision and that snapshot, the snapshot is
   * AboutToStop, every later capture callback sees the state unchanged, and
   * the primary round appends frame after frame without ever ending, however
   * much time passes between the callbacks: its duration is 0.
   */
  lemma StaleSnapshotKeepsCapturing(keepaliveSeconds: int, w: World, frames: seq<Frame>, times: seq<int>, startMs: int)
    requires w.producer == Primary(AboutToStop, startMs) && w.State() == AboutToStop
    requires |times| == |frames|
    ensures var r := Run(keepaliveSeconds, w, seq(|frames|, i requires 0 <= i < |frames| => Capture(frames[i], times[i])));
      r.producer == w.producer && r.pipe.produced == w.pipe.produced + frames
    decreases |frames|
  {
    var es := seq(|frames|, i requires 0 <= i < |frames| => Capture(frames[i], times[i]));
    if |frames| > 0 {
      var next := Apply(keepaliveSeconds, w, es[0]);
      assert es[1..] == seq(|frames[1..]|, i requires 0 <= i < |frames[1..]| => Capture(frames[1..][i], times[1..][i]));
      StaleSnapshotKeepsCapturing(keepaliveSeconds, next, frames[1..], times[1..], startMs);
      assert w.pipe.produced + frames == next.pipe.produced + frames[1..];
    }
  }

  /**
   * The encoder-session defaults are consistent with the rest of the model: 30
   * frames per second is a 33 ms period, and the default quality factor and
   * bitrate pass the configuration clamps unchanged.
   */
  lemma DefaultSessionInfoIsStable()
    ensures MediaGrabber.Period(DefaultSessionInfo.fps, 1) == 33
    ensures CaptureConfig.ClampCrf(DefaultSessionInfo.crf) == DefaultSessionInfo.crf == CaptureConfig.DefaultCrf
    ensures CaptureConfig.ClampBitrate(DefaultSessionInfo.outputBitrateInMB) == DefaultSessionInfo.outputBitrateInMB == 0
  {
  }

  /** Until `init` sets the keep-alive interval the watchdog is disabled: it never fires, however stale the file. */
  lemma DefaultKeepaliveDisablesWatchdog(mtime: int, nowMs: int)
    ensures !CW.WatchdogFires(DefaultKeepaliveSeconds, mtime, nowMs)
  {
    CW.WatchdogDisabled(DefaultKeepaliveSeconds, mtime, nowMs);
  }

  /** The default capture region has both corners at the origin, so until configured it spans an empty rectangle. */
  lemma DefaultRegionIsEmpty()
    ensures SourceSize(DefaultCaptureParams) == (0, 0)
  {
  }

  /** Running a non-empty sequence applies its first event, then the rest. */
  lemma RunCons(keepaliveSeconds: int, w: World, e: Event, rest: seq<Event>)
    ensures Run(keepaliveSeconds, w, [e] + rest) == Run(keepaliveSeconds, Apply(keepaliveSeconds, w, e), rest)
  {
    assert ([e] + rest)[1..] == rest;
  }

  /** A watcher tick whose command file holds `line`, modified at `mtime`, polled at `nowMs`. */
  function Line(mtime: int, nowMs: int, line: string): Event {
    Poll(CW.Tick(mtime, nowMs, Some(line)))
  }

  /**
   * StartRec followed by StopRec before the capture thread starts: the
   * snapshot is AboutToStop, which is the situation above.
   */
  lemma StopBeforeSnapshotScenario()
    ensures var w := Run(0, Initial, [Line(1, 1000, CW.StartLine), Resume(true), Line(2, 2000, CW.StopLine), Snapshot(2100, Granted)]);
      w.producer == Primary(AboutToStop, 2100) && w.State() == AboutToStop && w.caller.Joining?
  {
    var e1, e2, e3, e4 := Line(1, 1000, CW.StartLine), Resume(true), Line(2, 2000, CW.StopLine), Snapshot(2100, Granted);
    var w1 := Apply(0, Initial, e1);
    assert w1.watcher.decision == Some(true);
    var w2 := Apply(0, w1, e2);
    var w3 := Apply(0, w2, e3);
    assert w3.State() == AboutToStop;
    var w4 := Apply(0, w3, e4);
    RunCons(0, Initial, e1, [e2, e3, e4]);
    RunCons(0, w1, e2, [e3, e4]);
    RunCons(0, w2, e3, [e4]);
    RunCons(0, w3, e4, []);
  }

  /**
   * StopRec before any StartRec: `start` returns false without creating a
   * worker, and the state is left AboutToStop rather than Terminated.
   */
  lemma StopFirstScenario()
    ensures var w := Run(0, Initial, [Line(1, 1000, CW.StopLine), Resume(true)]);
      w.caller == Returned(false) && w.State() == AboutToStop && w.producer == NotLaunched
  {
    var e1, e2 := Line(1, 1000, CW.StopLine), Resume(true);
    var w1 := Apply(0, Initial, e1);
    assert w1.watcher.decision == Some(false) && w1.State() == AboutToStop;
    RunCons(0, Initial, e1, [e2]);
    RunCons(0, w1, e2, []);
  }

  /**
   * A keep-alive of 2 s gives a 6 s allowance: a command file last modified
   * at second 10 is still tolerated at 16.000 s, trips the watchdog at
   * 16.001 s, the session is Terminated and `start` returns false.
   */
  lemma WatchdogScenario()
    ensures var w1 := Apply(2, Initial, Poll(CW.Tick(10, 16000, None)));
      !w1.watcher.done && w1.State() == NotStarted && w1.watcher.decision == None
    ensures var w := Run(2, Initial, [Poll(CW.Tick(10, 16000, None)), Poll(CW.Tick(10, 16001, None)), Resume(true)]);
      w.caller == Returned(false) && w.State() == Terminated && w.pipe == EmptyPipe
  {
    var e1, e2, e3 := Poll(CW.Tick(10, 16000, None)), Poll(CW.Tick(10, 16001, None)), Resume(true);
    var w1 := Apply(2, Initial, e1);
    assert !w1.watcher.done;
    var w2 := Apply(2, w1, e2);
    assert w2.watcher.done && w2.State() == Terminated;
    RunCons(2, Initial, e1, [e2, e3]);
    RunCons(2, w1, e2, [e3]);
    RunCons(2, w2, e3, []);
  }

  /** Running two sequences of events one after the other. */
  lemma {:induction false} RunAppend(keepaliveSeconds: int, w: World, a: seq<Event>, b: seq<Event>)
    ensures Run(keepaliveSeconds, w, a + b) == Run(keepaliveSeconds, Run(keepaliveSeconds, w, a), b)
    decreases |a|
  {
    if |a| > 0 {
      assert (a + b)[1..] == a[1..] + b;
      RunAppend(keepaliveSeconds, Apply(keepaliveSeconds, w, a[0]), a[1..], b);
    } else {
      assert a + b == b;
    }
  }

  /** StartRec, the caller waking, the capture thread's snapshot, then the watchdog firing. */
  lemma WatchdogAfterStart()
    ensures var w := Run(1, Initial, [Line(1, 1000, CW.StartLine), Resume(true), Snapshot(1100, Granted), Poll(CW.Tick(1, 5000, None))]);
      && w.caller == Joining && w.producer == Primary(Started, 1100) && w.State() == Terminated
      && w.pipe == EmptyPipe && !w.consumerDone
  {
    var e1, e2, e3, e4 := Line(1, 1000, CW.StartLine), Resume(true), Snapshot(1100, Granted), Poll(CW.Tick(1, 5000, None));
    var w1 := Apply(1, Initial, e1);
    assert w1.State() == Started && w1.watcher.decision == Some(true);
    var w2 := Apply(1, w1, e2);
    assert w2.caller == Joining && w2.producer == Spawned;
    var w3 := Apply(1, w2, e3);
    assert w3.producer == Primary(Started, 1100);
    RunCons(1, Initial, e1, [e2, e3, e4]);
    RunCons(1, w1, e2, [e3, e4]);
    RunCons(1, w2, e3, [e4]);
    RunCons(1, w3, e4, []);
  }

  /** The primary round ends on the changed state, the encoding thread ends on the empty queue, and the extra round starts. */
  lemma WatchdogEndsEncoding(w: World)
    requires w.caller == Joining && w.producer == Primary(Started, 1100) && w.State() == Terminated
    requires w.pipe == EmptyPipe && !w.consumerDone
    ensures var r := Run(1, w, [Capture(8, 5100), Encode, Rearm(5200, Granted)]);
      && r.caller == Joining && r.producer == Extra(Terminated, 5200) && r.State() == Terminated
      && r.pipe == EmptyPipe && r.consumerDone
  {
    var e1, e2, e3 := Capture(8, 5100), Encode, Rearm(5200, Granted);
    var w1 := Apply(1, w, e1);
    assert w1.producer == PrimaryDone && w1.pipe == EmptyPipe;
    var w2 := Apply(1, w1, e2);
    assert w2.consumerDone;
    RunCons(1, w, e1, [e2, e3]);
    RunCons(1, w1, e2, [e3]);
    RunCons(1, w2, e3, []);
  }

  /** The extra round captures two frames that nobody encodes, and `start` returns true. */
  lemma ExtraFramesUnencoded(w: World)
    requires w.caller == Joining && w.producer == Extra(Terminated, 5200) && w.State() == Terminated
    requires w.pipe == EmptyPipe && w.consumerDone
    ensures var r := Run(1, w, [Capture(9, 5300), Capture(10, 7300), Finish, Join]);
      && r.caller == Returned(true) && r.pipe.produced == [9, 10] && r.pipe.consumed == []
  {
    var e1, e2, e3, e4 := Capture(9, 5300), Capture(10, 7300), Finish, Join;
    var w1 := Apply(1, w, e1);
    assert w1.pipe.produced == [9] && w1.producer == w.producer;
    var w2 := Apply(1, w1, e2);
    assert w2.pipe.produced == [9, 10] && w2.producer == ExtraDone;
    var w3 := Apply(1, w2, e3);
    RunCons(1, w, e1, [e2, e3, e4]);
    RunCons(1, w1, e2, [e3, e4]);
    RunCons(1, w2, e3, [e4]);
    RunCons(1, w3, e4, []);
  }

  /**
   * The watchdog firing after StartRec: the encoding thread finds the session
   * Terminated with an empty queue and ends, the capture thread's extra round
   * (whose snapshot is Terminated too) then captures two more frames, and
   * `start` returns true although neither frame was ever encoded.
   */
  lemma WatchdogLosesExtraFrames()
    ensures var w := Run(1, Initial, [
        Line(1, 1000, CW.StartLine), Resume(true), Snapshot(1100, Granted), Poll(CW.Tick(1, 5000, None)),
        Capture(8, 5100), Encode, Rearm(5200, Granted), Capture(9, 5300), Capture(10, 7300), Finish, Join]);
      && w.caller == Returned(true) && w.pipe.produced == [9, 10] && w.pipe.consumed == []
  {
    var a := [Line(1, 1000, CW.StartLine), Resume(true), Snapshot(1100, Granted), Poll(CW.Tick(1, 5000, None))];
    var b := [Capture(8, 5100), Encode, Rearm(5200, Granted)];
    var c := [Capture(9, 5300), Capture(10, 7300), Finish, Join];
    assert a + b + c == [
        Line(1, 1000, CW.StartLine), Resume(true), Snapshot(1100, Granted), Poll(CW.Tick(1, 5000, None)),
        Capture(8, 5100), Encode, Rearm(5200, Granted), Capture(9, 5300), Capture(10, 7300), Finish, Join];
    WatchdogAfterStart();
    WatchdogEndsEncoding(Run(1, Initial, a));
    ExtraFramesUnencoded(Run(1, Run(1, Initial, a), b));
    RunAppend(1, Initial, a + b, c);
    RunAppend(1, Initial, a, b);
  }

  /** StartRec, the caller waking, and a primary round whose event cannot be created. */
  lemma PrimaryWithoutEvent()
    ensures var w := Run(0, Initial, [Line(1, 1000, CW.StartLine), Resume(true), Snapshot(1100, MediaGrabber.Resources(false, true, true))]);
      && w.producer == PrimaryDone && w.State() == Started && !w.watcher.done && w.pipe == EmptyPipe
  {
    var e1, e2, e3 := Line(1, 1000, CW.StartLine), Resume(true), Snapshot(1100, MediaGrabber.Resources(false, true, true));
    var w1 := Apply(0, Initial, e1);
    assert w1.State() == Started && w1.watcher.decision == Some(true);
    var w2 := Apply(0, w1, e2);
    RunCons(0, Initial, e1, [e2, e3]);
    RunCons(0, w1, e2, [e3]);
    RunCons(0, w2, e3, []);
  }

  /** The extra round after a skipped primary round runs its two seconds and the thread writes Terminated. */
  lemma ExtraRoundTerminates(w: World)
    requires w.producer == PrimaryDone && w.State() == Started && !w.watcher.done && w.pipe == EmptyPipe
    ensures var r := Run(0, w, [Rearm(1100, Granted), Capture(7, 3100), Finish]);
      && r.State() == Terminated && r.producer == Finished && !r.watcher.done && r.pipe.produced == [7]
  {
    var e1, e2, e3 := Rearm(1100, Granted), Capture(7, 3100), Finish;
    var w1 := Apply(0, w, e1);
    assert w1.producer == Extra(Started, 1100);
    var w2 := Apply(0, w1, e2);
    assert w2.producer == ExtraDone && w2.pipe.produced == [7];
    RunCons(0, w, e1, [e2, e3]);
    RunCons(0, w1, e2, [e3]);
    RunCons(0, w2, e3, []);
  }

  /**
   * A primary round whose event cannot be created is over at once; the extra
   * round that follows runs its two seconds and the capture thread writes
   * Terminated, although no StopRec was ever read.
   */
  lemma EventFailureEndsSessionScenario()
    ensures var w := Run(0, Initial, [
        Line(1, 1000, CW.StartLine), Resume(true), Snapshot(1100, MediaGrabber.Resources(false, true, true)),
        Rearm(1100, Granted), Capture(7, 3100), Finish]);
      && w.State() == Terminated && w.producer == Finished && !w.watcher.done && w.pipe.produced == [7]
  {
    var a := [Line(1, 1000, CW.StartLine), Resume(true), Snapshot(1100, MediaGrabber.Resources(false, true, true))];
    var b := [Rearm(1100, Granted), Capture(7, 3100), Finish];
    assert a + b == [
        Line(1, 1000, CW.StartLine), Resume(true), Snapshot(1100, MediaGrabber.Resources(false, true, true)),
        Rearm(1100, Granted), Capture(7, 3100), Finish];
    PrimaryWithoutEvent();
    ExtraRoundTerminates(Run(0, Initial, a));
    RunAppend(0, Initial, a, b);
  }
}

=== FILE: frame_queue.dfy ===
/**
 * The frame handoff between the capture thread (producer) and the encoding
 * thread (consumer): one callback body each, applied to a double-ended queue
 * of frames. Frames are opaque; the model records every frame ever appended
 * and every frame ever handed to the encoder next to the queue itself.
 */
module FrameQueue {
  import opened CaptureSession

  /** An opaque captured frame; its pixels are never inspected. */
  type Frame = nat

  /** The queue with the history of appended and consumed frames. */
  datatype Pipe = Pipe(queue: seq<Frame>, produced: seq<Frame>, consumed: seq<Frame>)

  /** The queue holds exactly the appended frames not yet consumed, in order. */
  predicate Fifo(p: Pipe) {
    p.produced == p.consumed + p.queue
  }

  /** The empty pipe every session starts with. */
  const EmptyPipe: Pipe := Pipe([], [], [])

  /** A callback's verdict (`true` = keep running) together with the pipe it leaves. */
  datatype TickResult = TickResult(keepGoing: bool, pipe: Pipe)

  /**
   * The capture callback: while the live state still equals the snapshot the
   * thread took, capture one frame, append it at the back and keep going;
   * otherwise append nothing and stop.
   */
  function ProducerTick(p: Pipe, live: RecordingState, snapshot: RecordingState, frame: Frame): (r: TickResult)
    ensures r.keepGoing <==> live == snapshot
    ensures r.keepGoing ==> r.pipe.queue == p.queue + [frame] && r.pipe.produced == p.produced + [frame]
    ensures !r.keepGoing ==> r.pipe == p
    ensures r.pipe.consumed == p.consumed
    ensures Fifo(p) ==> Fifo(r.pipe)
  {
    if live == snapshot then TickResult(true, Pipe(p.queue + [frame], p.produced + [frame], p.consumed))
    else TickResult(false, p)
  }

  /**
   * The encoding callback: keep going while the session runs or frames are
   * waiting; when a frame is waiting, take the front one and hand it to the
   * encoder.
   */
  function ConsumerTick(p: Pipe, live: RecordingState): (r: TickResult)
    ensures r.keepGoing <==> IsCaptureSessionRunning(live) || |p.queue| > 0
    ensures |p.queue| > 0 ==> r.pipe.consumed == p.consumed + [p.queue[0]] && r.pipe.queue == p.queue[1..]
    ensures |p.queue| == 0 ==> r.pipe == p
    ensures r.pipe.produced == p.produced
    ensures Fifo(p) ==> Fifo(r.pipe)
  {
    if IsCaptureSessionRunning(live) || |p.queue| > 0 then
      if |p.queue| > 0 then TickResult(true, Pipe(p.queue[1..], p.produced, p.consumed + [p.queue[0]]))
      else TickResult(true, p)
    else TickResult(false, p)
  }

  /** One step of either thread, for describing interleavings. */
  datatype Op = Produce(live: RecordingState, snapshot: RecordingState, frame: Frame) | Consume(live: RecordingState)

  /** Applying an interleaving of producer and consumer callbacks to a pipe. */
  function ApplyOps(p: Pipe, ops: seq<Op>): Pipe
    decreases |ops|
  {
    if |ops| == 0 then p
    else
      var next := match ops[0]
        case Produce(live, snapshot, frame) => ProducerTick(p, live, snapshot, frame).pipe
        case Consume(live) => ConsumerTick(p, live).pipe;
      ApplyOps(next, ops[1..])
  }

  /**
   * Under any interleaving of the two callbacks the frames handed to the
   * encoder are a prefix of the frames captured, in capture order.
   */
  lemma {:induction false} ConsumedIsPrefixOfProduced(p: Pipe, ops: seq<Op>)
    requires Fifo(p)
    ensures Fifo(ApplyOps(p, ops))
    ensures ApplyOps(p, ops).consumed <= ApplyOps(p, ops).produced
    decreases |ops|
  {
    if |ops| > 0 {
      var next := match ops[0]
        case Produce(live, snapshot, frame) => ProducerTick(p, live, snapshot, frame).pipe
        case Consume(live) => ConsumerTick(p, live).pipe;
      ConsumedIsPrefixOfProduced(next, ops[1..]);
    } else {
      assert p.produced[..|p.consumed|] == p.consumed;
    }
  }

  /**
   * Once nothing is appended any more, one consumer callback per waiting
   * frame hands every captured frame to the encoder, whatever the state.
   */
  lemma {:induction false} ConsumerDrains(p: Pipe, live: RecordingState)
    requires Fifo(p)
    ensures var q := ApplyOps(p, seq(|p.queue|, _ => Consume(live)));
      q.queue == [] && q.consumed == p.produced
    decreases |p.queue|
  {
    var ops := seq(|p.queue|, _ => Consume(live));
    if |p.queue| > 0 {
      var next := ConsumerTick(p, live).pipe;
      assert ops[1..] == seq(|next.queue|, _ => Consume(live));
      ConsumerDrains(next, live);
    }
  }
}

=== FILE: log_util.dfy ===
/**
 * The pure helpers of the logging utility: level names and the level filter,
 * stripping a source path to its file name, the log-file name derived from the
 * process name, joining the message arguments, and `name=value` formatting.
 */
module LogUtil {
  import opened Wrappers

  /** Severity levels, ordered by their underlying values 0..5. */
  datatype LogLevel = Trace | Debug | Info | Warning | Err | Fatal {
    function Value(): nat {
      match this
      case Trace => 0
      case Debug => 1
      case Info => 2
      case Warning => 3
      case Err => 4
      case Fatal => 5
    }
  }

  /** The level a logger filters at when none is given. */
  const DefaultLoggerLevel: LogLevel := Info

  /** The level with a given underlying value, if any. */
  function LevelOfValue(v: int): (r: Option<LogLevel>)
    ensures r.Some? <==> 0 <= v <= 5
    ensures r.Some? ==> r.value.Value() == v
  {
    if v == 0 then Some(Trace) else if v == 1 then Some(Debug) else if v == 2 then Some(Info)
    else if v == 3 then Some(Warning) else if v == 4 then Some(Err) else if v == 5 then Some(Fatal)
    else None
  }

  /**
   * `getLogLevelString` applied to an enumeration value: a name for each of the
   * six levels, the empty string for any other value.
   */
  function LevelString(v: int): (name: string)
    ensures name == "" <==> !(0 <= v <= 5)
  {
    match LevelOfValue(v)
    case None => ""
    case Some(level) =>
      match level
      case Trace => "TRACE"
      case Debug => "DEBUG"
      case Info => "INFO"
      case Warning => "WARNING"
      case Err => "ERROR"
      case Fatal => "FATAL"
  }

  /** Reading a level back from its printed name. */
  function LevelOfName(name: string): Option<LogLevel> {
    if name == "TRACE" then Some(Trace) else if name == "DEBUG" then Some(Debug)
    else if name == "INFO" then Some(Info) else if name == "WARNING" then Some(Warning)
    else if name == "ERROR" then Some(Err) else if name == "FATAL" then Some(Fatal)
    else None
  }

  /** Every level's printed name identifies it; the ERR level prints as "ERROR". */
  lemma LevelStringRoundTrip(level: LogLevel)
    ensures LevelOfName(LevelString(level.Value())) == Some(level)
    ensures level == Err ==> LevelString(level.Value()) == "ERROR"
  {
  }

  /** The filter of `constructAndWriteLog`: a message is written when its level is at least the logger's. */
  function ShouldWrite(level: LogLevel, loggerLevel: LogLevel): (written: bool)
    ensures level == Fatal || loggerLevel == Trace || level == loggerLevel ==> written
    ensures level == Trace ==> (written <==> loggerLevel == Trace)
    ensures written && level != loggerLevel ==> loggerLevel.Value() < level.Value()
  {
    level.Value() >= loggerLevel.Value()
  }

  /**
   * The filter is monotone: a message written at some logger level is written
   * at every lower one, FATAL is always written, and the default level drops
   * exactly TRACE and DEBUG.
   */
  lemma FilterProperties(level: LogLevel, loggerLevel: LogLevel, lower: LogLevel)
    ensures ShouldWrite(level, loggerLevel) && lower.Value() <= loggerLevel.Value() ==> ShouldWrite(level, lower)
    ensures ShouldWrite(Fatal, loggerLevel)
    ensures ShouldWrite(level, DefaultLoggerLevel) <==> level !in {Trace, Debug}
  {
  }

  /** Position of the last occurrence of `c` in `s` (`rfind`). */
  function LastIndexOf(s: string, c: char): (r: Option<nat>)
    ensures r.None? <==> c !in s
    ensures r.Some? ==> r.value < |s| && s[r.value] == c && c !in s[r.value + 1..]
    decreases |s|
  {
    if |s| == 0 then None
    else if s[|s| - 1] == c then Some(|s| - 1)
    else
      var r := LastIndexOf(s[..|s| - 1], c);
      assert r.Some? ==> s[r.value + 1..] == s[..|s| - 1][r.value + 1..] + [s[|s| - 1]];
      assert r.None? ==> s == s[..|s| - 1] + [s[|s| - 1]];
      r
  }

  /** Position of the first occurrence of `c` in `s`. */
  function FirstIndexOf(s: string, c: char): (r: Option<nat>)
    ensures r.None? <==> c !in s
    ensures r.Some? ==> r.value < |s| && s[r.value] == c
    ensures r.Some? ==> forall j | 0 <= j < r.value :: s[j] != c
    decreases |s|
  {
    if |s| == 0 then None
    else if s[0] == c then Some(0)
    else
      match FirstIndexOf(s[1..], c)
      case None => None
      case Some(i) => Some(i + 1)
  }

  /** The first occurrence of a separator placed right after a separator-free prefix is at the prefix's end. */
  lemma FirstIndexAfterPrefix(a: string, c: char, b: string)
    requires c !in a
    ensures FirstIndexOf(a + [c] + b, c) == Some(|a|)
  {
    var s := a + [c] + b;
    assert s[|a|] == c;
    assert s[..|a|] == a;
  }

  /** `getCurrentLogModuleFileName`: the part of a path after its last backslash. */
  function ModuleFileName(path: string): (name: string)
    ensures '\\' !in name
    ensures |name| <= |path| && name == path[|path| - |name|..]
    ensures '\\' !in path ==> name == path
    ensures '\\' in path ==> path[|path| - |name| - 1] == '\\'
  {
    match LastIndexOf(path, '\\')
    case None => path
    case Some(pos) => path[pos + 1..]
  }

  /** Stripping the directories twice gives the same file name as stripping once. */
  lemma ModuleFileNameIdempotent(path: string)
    ensures ModuleFileName(ModuleFileName(path)) == ModuleFileName(path)
  {
  }

  /**
   * The log file name built by the logger constructor: the output directory,
   * a backslash, the process name up to its last dot and ".log". A process
   * name without a dot yields no log file.
   */
  function LogFileName(outputFilePath: string, processName: string): (r: Option<string>)
    ensures r.Some? <==> '.' in processName
  {
    match LastIndexOf(processName, '.')
    case None => None
    case Some(pos) => Some(outputFilePath + "\\" + processName[..pos] + ".log")
  }

  /** For a process name "stem.ext" whose extension has no dot, the log file is "dir\stem.log". */
  lemma LogFileNameOfStem(outputFilePath: string, stem: string, ext: string)
    requires '.' !in ext
    ensures LogFileName(outputFilePath, stem + "." + ext) == Some(outputFilePath + "\\" + stem + ".log")
  {
    var name := stem + "." + ext;
    assert name[|stem|] == '.';
    assert name[|stem| + 1..] == ext;
    assert name[..|stem|] == stem;
  }

  /** `processLoggingParameter`: the message arguments joined by single spaces. */
  function JoinParams(args: seq<string>): (r: string)
    requires |args| > 0
    ensures |args| == 1 ==> r == args[0]
    ensures |args[0]| <= |r| && r[..|args[0]|] == args[0]
    decreases |args|
  {
    if |args| == 1 then args[0] else args[0] + " " + JoinParams(args[1..])
  }

  /** Splitting a string at every space, keeping empty pieces: the inverse of joining. */
  function SplitParams(s: string): (pieces: seq<string>)
    ensures |pieces| > 0
    decreases |s|
  {
    match FirstIndexOf(s, ' ')
    case None => [s]
    case Some(i) => [s[..i]] + SplitParams(s[i + 1..])
  }

  /** A space-free first piece followed by a space splits off as one piece. */
  lemma SplitAfterPiece(a: string, b: string)
    requires ' ' !in a
    ensures SplitParams(a + " " + b) == [a] + SplitParams(b)
  {
    var s := a + " " + b;
    FirstIndexAfterPrefix(a, ' ', b);
    assert s[..|a|] == a;
    assert s[|a| + 1..] == b;
  }

  /** Arguments without spaces are recovered exactly from their joined form. */
  lemma {:induction false} SplitJoinRoundTrip(args: seq<string>)
    requires |args| > 0
    requires forall i | 0 <= i < |args| :: ' ' !in args[i]
    ensures SplitParams(JoinParams(args)) == args
    decreases |args|
  {
    if |args| > 1 {
      var rest := args[1..];
      assert ' ' !in args[0];
      SplitAfterPiece(args[0], JoinParams(rest));
      assert forall i | 0 <= i < |rest| :: ' ' !in rest[i] by {
        forall i | 0 <= i < |rest| ensures ' ' !in rest[i] {
          assert rest[i] == args[i + 1];
        }
      }
      SplitJoinRoundTrip(rest);
      assert args == [args[0]] + rest;
    }
  }

  /** The decimal digit for a value below ten. */
  function DigitChar(d: nat): char
    requires d < 10
  {
    ('0' as int + d) as char
  }

  /** Decimal text of a natural number, most significant digit first, no leading zeros. */
  function NatText(n: nat): (s: string)
    ensures |s| > 0 && forall i | 0 <= i < |s| :: '0' <= s[i] <= '9'
  {
    if n < 10 then [DigitChar(n)] else NatText(n / 10) + [DigitChar(n % 10)]
  }

  /** Decimal text of an integer as a stream inserts it: a minus sign before negative values. */
  function IntText(v: int): string {
    if v < 0 then "-" + NatText(-v) else NatText(v)
  }

  /** `getNV` on an integer: `name=value`. */
  function GetNV(name: string, v: int): (r: string)
    ensures |r| > |name| + 1 && r[..|name|] == name && r[|name|] == '='
  {
    name + "=" + IntText(v)
  }

  /** The value of a string of decimal digits. */
  function ParseNat(s: string): int
    decreases |s|
  {
    if |s| == 0 then 0 else ParseNat(s[..|s| - 1]) * 10 + (s[|s| - 1] as int - '0' as int)
  }

  /** The value of decimal text with an optional leading minus sign. */
  function ParseInt(s: string): int {
    if |s| > 0 && s[0] == '-' then -ParseNat(s[1..]) else ParseNat(s)
  }

  /** Reading a `name=value` pair back: the name is everything before the first '='. */
  function ParseNV(s: string): Option<(string, int)> {
    match FirstIndexOf(s, '=')
    case None => None
    case Some(i) => Some((s[..i], ParseInt(s[i + 1..])))
  }

  /** Decimal text reads back as the number it was made from. */
  lemma {:induction false} NatTextRoundTrip(n: nat)
    ensures ParseNat(NatText(n)) == n
  {
    if n >= 10 {
      var s := NatText(n);
      assert s[..|s| - 1] == NatText(n / 10);
      NatTextRoundTrip(n / 10);
    }
  }

  /** Integer text reads back as the integer it was made from. */
  lemma IntTextRoundTrip(v: int)
    ensures ParseInt(IntText(v)) == v
  {
    if v < 0 {
      assert ("-" + NatText(-v))[1..] == NatText(-v);
      NatTextRoundTrip(-v);
    } else {
      NatTextRoundTrip(v);
    }
  }

  /** For a name without '=', the formatted pair reads back as the name and the value. */
  lemma NVRoundTrip(name: string, v: int)
    requires '=' !in name
    ensures ParseNV(GetNV(name, v)) == Some((name, v))
  {
    var s := GetNV(name, v);
    assert s == name + ['='] + IntText(v);
    FirstIndexAfterPrefix(name, '=', IntText(v));
    assert s[..|name|] == name;
    assert s[|name| + 1..] == IntText(v);
    IntTextRoundTrip(v);
  }
}

=== FILE: media_grabber.dfy ===
/**
 * TimedMediaGrabber: a periodic driver of a boolean callback with two
 * backends, an OS timer queue and a sleeping thread. The model keeps its
 * decisions: the period derived from the frame rate, the rule that ends a run
 * after an invocation, the run flag of the sleep loop, the timer handles, and
 * what `start` reports. Operating-system calls that can fail become boolean
 * inputs; the clock becomes an integer input in milliseconds.
 */
module MediaGrabber {
  /** Fallback capture rate used when the requested rate is out of range. */
  const DefaultMediaFps: int := 30

  /** The backend selector. */
  datatype CallbackType = UnknownCallback | MultimediaTimer | SystemSleep

  /** The state of the completion event: not created, created and reset, or signalled. */
  datatype DoneEvent = NoHandle | Reset | Signalled

  /**
   * The grabber's fields: backend, period in milliseconds, run duration in
   * seconds (0 = unbounded), start time, run flag, the two timer handles
   * (true = non-null) and the completion event.
   */
  datatype Grabber = Grabber(
    mode: CallbackType, period: int, durationSec: int, startMs: int,
    runState: bool, timerQueue: bool, timer: bool, doneEvent: DoneEvent)

  /** The rate actually used: the scaled rate when it lies in (0, 1000], the default otherwise. */
  function EffectiveFps(fps: int, grabFactor: int): (f: int)
    ensures 0 < f <= 1000
    ensures f == grabFactor * fps || f == DefaultMediaFps
    ensures 0 < grabFactor * fps <= 1000 ==> f == grabFactor * fps
  {
    var factoredFps := grabFactor * fps;
    if factoredFps > 0 && factoredFps <= 1000 then factoredFps else DefaultMediaFps
  }

  /**
   * The callback period in milliseconds: the largest whole number of
   * milliseconds that the effective rate fits into one second.
   */
  function Period(fps: int, grabFactor: int): (period: int)
    ensures 1 <= period <= 1000
    ensures period * EffectiveFps(fps, grabFactor) <= 1000 < (period + 1) * EffectiveFps(fps, grabFactor)
  {
    1000 / EffectiveFps(fps, grabFactor)
  }

  /** The constructor: period from the rate, the requested duration, timer backend, nothing armed. */
  function New(fps: int, durationSec: int, grabFactor: int): (g: Grabber)
    ensures g.period == Period(fps, grabFactor) && 1 <= g.period <= 1000 && g.durationSec == durationSec
    ensures g.mode == MultimediaTimer && !g.runState && !g.timer && !g.timerQueue && g.doneEvent == NoHandle
  {
    Grabber(MultimediaTimer, Period(fps, grabFactor), durationSec, 0, false, false, false, NoHandle)
  }

  /** `getMediaCallbackType`: the backend's name for logging, empty for an unknown backend. */
  function CallbackTypeName(t: CallbackType): (name: string)
    ensures name == "" <==> t == UnknownCallback
  {
    match t
    case MultimediaTimer => "MULTIMEDIA_TIMER"
    case SystemSleep => "SYSTEM_SLEEP"
    case UnknownCallback => ""
  }

  /** Distinct backends have distinct names, so the logged name identifies the backend. */
  lemma CallbackTypeNamesDistinct(t1: CallbackType, t2: CallbackType)
    requires t1 != t2
    ensures CallbackTypeName(t1) != CallbackTypeName(t2)
  {
  }

  /** Which operating-system resources can be obtained when `start` runs. */
  datatype Resources = Resources(eventOk: bool, timerQueueOk: bool, timerOk: bool)

  /** What `start` returns together with the grabber it leaves behind. */
  datatype StartResult = StartResult(ok: bool, grabber: Grabber)

  /**
   * `start`: create the completion event, record the start time, then arm the
   * selected backend. An unknown backend arms nothing yet reports success.
   */
  function Start(g: Grabber, res: Resources, nowMs: int): (r: StartResult)
    ensures !res.eventOk ==> !r.ok && r.grabber == g
    ensures r.ok ==> r.grabber.doneEvent == Reset && r.grabber.startMs == nowMs
    ensures g.mode == MultimediaTimer ==>
              (r.ok <==> res.eventOk && res.timerQueueOk && res.timerOk) && (r.ok ==> r.grabber.timer)
    ensures g.mode != MultimediaTimer ==> (r.ok <==> res.eventOk)
    ensures r.grabber.runState <==> g.runState || (g.mode == SystemSleep && res.eventOk)
    ensures r.grabber.mode == g.mode && r.grabber.period == g.period && r.grabber.durationSec == g.durationSec
  {
    if !res.eventOk then StartResult(false, g)
    else
      var g1 := g.(doneEvent := Reset, startMs := nowMs);
      match g.mode
      case MultimediaTimer =>
        if !res.timerQueueOk then StartResult(false, g1.(timerQueue := false))
        else if !res.timerOk then StartResult(false, g1.(timerQueue := true))
        else StartResult(true, g1.(timerQueue := true, timer := true))
      case SystemSleep => StartResult(true, g1.(runState := true))
      case UnknownCallback => StartResult(true, g1)
  }

  /**
   * `deleteTimer`: when a timer exists, release it and forget both handles;
   * otherwise do nothing.
   */
  function DeleteTimer(g: Grabber): (r: Grabber)
    ensures !r.timer
    ensures g.timer ==> !r.timerQueue
    ensures !g.timer ==> r == g
    ensures r.runState == g.runState && r.doneEvent == g.doneEvent && r.mode == g.mode
  {
    if g.timer then g.(timer := false, timerQueue := false) else g
  }

  /** Deleting the timer twice is the same as deleting it once. */
  lemma DeleteTimerIdempotent(g: Grabber)
    ensures DeleteTimer(DeleteTimer(g)) == DeleteTimer(g)
  {
  }

  /**
   * The rule applied after each invocation: the run ends when the callback
   * returned false, or when a positive duration has been reached or passed.
   */
  function StopsAfter(result: bool, durationSec: int, elapsedMs: int): (stops: bool)
    ensures !result ==> stops
    ensures durationSec <= 0 ==> (stops <==> !result)
    ensures result && durationSec > 0 ==> (stops <==> elapsedMs >= durationSec * 1000)
  {
    !result || (durationSec > 0 && elapsedMs >= durationSec * 1000)
  }

  /** Once the duration has run out it stays run out: a later callback would stop the run too. */
  lemma StopIsPersistent(result: bool, durationSec: int, elapsedMs: int, laterMs: int)
    requires elapsedMs <= laterMs
    ensures StopsAfter(result, durationSec, elapsedMs) ==> StopsAfter(result, durationSec, laterMs)
  {
  }

  /** One invocation of the callback as seen from outside: its result and the clock when it returned. */
  datatype Invocation = Invocation(result: bool, nowMs: int)

  /** Whether invocation `inv` ends a run of `g`. */
  predicate Ends(g: Grabber, inv: Invocation) {
    StopsAfter(inv.result, g.durationSec, inv.nowMs - g.startMs)
  }

  /**
   * `callbackRoutine` after the callback returned: on a stop, delete the timer
   * (timer backend only), clear the run flag and signal completion; otherwise
   * leave everything as it was.
   */
  function CallbackRoutine(g: Grabber, inv: Invocation): (r: Grabber)
    ensures Ends(g, inv) ==> !r.runState && (g.doneEvent != NoHandle ==> r.doneEvent == Signalled)
    ensures !Ends(g, inv) ==> r == g
    ensures Ends(g, inv) && g.mode == MultimediaTimer ==> !r.timer
    ensures g.mode != MultimediaTimer ==> r.timer == g.timer && r.timerQueue == g.timerQueue
    ensures r.mode == g.mode && r.period == g.period && r.durationSec == g.durationSec && r.startMs == g.startMs
    ensures r.runState ==> g.runState
  {
    if Ends(g, inv) then
      var g1 := if g.mode == MultimediaTimer then DeleteTimer(g) else g;
      g1.(runState := false, doneEvent := if g1.doneEvent == NoHandle then NoHandle else Signalled)
    else g
  }

  /** With duration 0 a run never ends on time grounds: only a false callback result ends it. */
  lemma UnboundedRunEndsOnlyOnFalse(result: bool, elapsedMs: int)
    ensures StopsAfter(result, 0, elapsedMs) <==> !result
  {
  }

  /** The duration comparison is non-strict: reaching the duration exactly ends the run, one millisecond earlier does not. */
  lemma DurationBoundaryIsInclusive(durationSec: int)
    requires durationSec > 0
    ensures StopsAfter(true, durationSec, durationSec * 1000)
    ensures !StopsAfter(true, durationSec, durationSec * 1000 - 1)
  {
  }

  /**
   * How a thread that calls `start` and then waits without a time-out on the
   * completion event fares: without an event the wait fails at once; with one
   * it lasts until a callback signals it, which needs an armed timer or a
   * running sleep loop; with neither it lasts for ever.
   */
  datatype Wait = FailsAtOnce | UntilSignalled | Forever

  /** The wait that follows `start`. */
  function WaitAfterStart(s: StartResult): (wait: Wait)
    ensures wait == FailsAtOnce <==> s.grabber.doneEvent == NoHandle
    ensures wait == UntilSignalled ==> s.grabber.timer || s.grabber.runState
  {
    if s.grabber.doneEvent == NoHandle then FailsAtOnce
    else if s.grabber.timer || s.grabber.runState then UntilSignalled
    else Forever
  }

  /**
   * For a new grabber with the timer backend, `start` reports success exactly
   * when the wait that follows can end by a signal; a missing event makes the
   * wait fail at once, and a missing timer queue or timer makes it last for
   * ever although an event exists.
   */
  lemma TimerStartWait(fps: int, durationSec: int, grabFactor: int, res: Resources, nowMs: int)
    ensures var s := Start(New(fps, durationSec, grabFactor), res, nowMs);
      && (s.ok <==> WaitAfterStart(s) == UntilSignalled)
      && (WaitAfterStart(s) == FailsAtOnce <==> !res.eventOk)
      && (WaitAfterStart(s) == Forever <==> res.eventOk && !(res.timerQueueOk && res.timerOk))
  {
  }

  /** With an unknown backend `start` reports success, yet nothing is armed and the wait lasts for ever. */
  lemma UnknownBackendWaitsForever(fps: int, durationSec: int, grabFactor: int, res: Resources, nowMs: int)
    requires res.eventOk
    ensures var s := Start(New(fps, durationSec, grabFactor).(mode := UnknownCallback), res, nowMs);
      s.ok && WaitAfterStart(s) == Forever
  {
  }

  /** A rate of 0 falls back to 30 frames per second, a 33 ms period. */
  lemma ZeroFpsPeriod()
    ensures Period(0, 1) == 33
  {
  }

  /** Multiplying by a non-negative factor preserves order. */
  lemma MulMonotone(a: int, b: int, c: int)
    requires 0 <= a && b <= c
    ensures a * b <= a * c
  {
  }

  /** A whole number of periods that fits into one second is at most the computed period. */
  lemma FitsWithinPeriod(x: int, fps: int, grabFactor: int)
    requires x * EffectiveFps(fps, grabFactor) <= 1000
    ensures x <= Period(fps, grabFactor)
  {
    var f, p := EffectiveFps(fps, grabFactor), Period(fps, grabFactor);
    if x > p {
      MulMonotone(f, p + 1, x);
    }
  }

  /** Within the accepted range a higher rate never gives a longer period. */
  lemma PeriodAntitone(fps1: int, fps2: int)
    requires 0 < fps1 <= fps2 <= 1000
    ensures Period(fps2, 1) <= Period(fps1, 1)
  {
    var p2 := Period(fps2, 1);
    MulMonotone(p2, fps1, fps2);
    FitsWithinPeriod(p2, fps1, 1);
  }

  /**
   * The sleep-backend thread: while the run flag is set, sleep one period and
   * invoke the callback. `invocations` supplies, in order, what successive
   * callbacks return and when; the loop stops early when the run flag drops,
   * and reports how many callbacks it invoked.
   */
  method RunSleepLoop(g: Grabber, invocations: seq<Invocation>) returns (calls: nat, r: Grabber)
    ensures calls <= |invocations|
    ensures !g.runState ==> calls == 0 && r == g
    ensures forall i | 0 <= i < calls - 1 :: !Ends(g, invocations[i])
    ensures g.runState ==> (r.runState <==> forall i | 0 <= i < calls :: !Ends(g, invocations[i]))
    ensures r.runState ==> calls == |invocations|
    ensures 0 < calls && Ends(g, invocations[calls - 1]) ==> !r.runState
    ensures g.runState && g.doneEvent != NoHandle && !r.runState ==> r.doneEvent == Signalled
    ensures r.runState ==> r.doneEvent == g.doneEvent
  {
    calls := 0;
    r := g;
    while r.runState && calls < |invocations|
      invariant calls <= |invocations|
      invariant r.mode == g.mode && r.durationSec == g.durationSec && r.startMs == g.startMs
      invariant !g.runState ==> calls == 0 && r == g
      invariant forall i | 0 <= i < calls :: !Ends(g, invocations[i]) || i == calls - 1
      invariant g.runState ==> (r.runState <==> forall i | 0 <= i < calls :: !Ends(g, invocations[i]))
      invariant g.doneEvent != NoHandle ==> r.doneEvent != NoHandle
      invariant r.runState ==> r.doneEvent == g.doneEvent
      invariant g.runState && g.doneEvent != NoHandle && !r.runState ==> r.doneEvent == Signalled
      decreases |invocations| - calls
    {
      r := CallbackRoutine(r, invocations[calls]);
      calls := calls + 1;
    }
  }

  /**
   * `start` on a new grabber switched to the given backend, followed by the
   * sleep thread's loop. With the sleep backend and an event, callbacks run in
   * order until the first one that ends the run, elapsed time being measured
   * from the moment `start` ran, and the waiting thread is released exactly
   * when one did; the timer backend starts no sleep loop at all.
   */
  method StartAndRunSleep(fps: int, durationSec: int, mode: CallbackType, res: Resources, nowMs: int, invocations: seq<Invocation>)
    returns (ok: bool, calls: nat, r: Grabber)
    ensures calls <= |invocations|
    ensures mode == SystemSleep ==> (ok <==> res.eventOk)
    ensures mode != SystemSleep || !res.eventOk ==> calls == 0 && !r.runState
    ensures mode == SystemSleep && res.eventOk ==>
      && (forall i | 0 <= i < calls - 1 :: !StopsAfter(invocations[i].result, durationSec, invocations[i].nowMs - nowMs))
      && (calls < |invocations| ==> 0 < calls && StopsAfter(invocations[calls - 1].result, durationSec, invocations[calls - 1].nowMs - nowMs))
      && (r.runState <==> forall i | 0 <= i < calls :: !StopsAfter(invocations[i].result, durationSec, invocations[i].nowMs - nowMs))
      && (r.doneEvent == Signalled <==> !r.runState)
  {
    var started := Start(New(fps, durationSec, 1).(mode := mode), res, nowMs);
    ok := started.ok;
    calls, r := RunSleepLoop(started.grabber, invocations);
  }
}

=== FILE: wrappers.dfy ===
/** Failure-carrying values shared by the rest of the model. */
module Wrappers {

  /** A value that may be absent: a missing file, an unset promise, a failed lookup. */
  datatype Option<+T> = None | Some(value: T)

  /** The outcome of an operation that can fail with an error of type E. */
  datatype Result<+T, +E> = Success(value: T) | Failure(error: E)
}
